=== FILE: README.md ===
# Video calls add-on: a verified model of its core

The add-on (`index.js`) lets a chat host see the user through the webcam.
A call holds a camera stream and shows a preview. Each user message sent
during a call gets a snapshot: saved as a file and shown on the message in
captions mode, or added to the prompt by a generation interceptor in inline
mode. An auto-send loop posts empty user turns at a configurable interval.
A wake-up alarm starts a call at a chosen time, with a prompt that carries
the user's reminder. Two one-shot flags tie this together:

- the skip flag keeps the add-on's own announcements free of snapshots;
- the start override makes the alarm's prompt replace the configured start
  prompt, once.

The model has seven modules:

- `Wrappers` (`wrappers.dfy`): `Option`.
- `Text` (`text.dfy`): the JavaScript string operations the add-on relies
  on. These are `String.prototype.trim` with the full ECMAScript whitespace
  set, `replaceAll` with a string pattern (literal, and with the `$`
  replacement patterns of GetSubstitution), `Number.prototype.toString` on
  naturals, and `padStart(2, '0')`.
- `Clock` (`clock.dfy`): the alarm's integer time arithmetic. It covers
  12/24-hour conversion, the display hour, the countdown text, the "next
  occurrence" rule and the alarm dialog's default time. An instant is a
  number of milliseconds since the local midnight that starts today; the
  current time is always an instant of today.
- `Config` (`config.dfy`): the stored settings, their defaults,
  `getSettingText`, and the settings handlers' normalisation (interval
  clamp, image mode).
- `Frame` (`frame.dfy`): the JPEG data URL a frame travels as, and the
  payload taken out of it.
- `Session` (`session.dfy`): the process-wide variables as one immutable
  record. It covers call start/stop, the call button, the auto-send loop,
  and alarm scheduling, clearing and firing. Each transition returns the new
  record and the host calls and timer operations it makes, in order, as a
  list of effects.
- `Attachment` (`attachment.dfy`): the snapshot handler run after a user
  message is rendered, and the inline generation interceptor.

The browser, the host and the clock are parameters of the transitions:

- whether the media API exists;
- whether the camera is granted;
- the data URL the canvas would produce (or none while the video has no
  size);
- the path the host's file save returns;
- whether the host offers media arrays;
- the current time.

## Model

| member | source | states |
|---|---|---|
| Text.Trim | index.js:32 | The trimmed text has no whitespace at either end and is no longer than the input |
| Text.TrimIsMiddle | index.js:32 | The trimmed text is a contiguous slice of the input |
| Text.TrimCutsOnlySpace | index.js:32 | Everything trimming cuts off before and after the kept text is whitespace |
| Text.TrimEmptyIffBlank | index.js:32-33 | Trimming yields the empty string exactly when the input is all whitespace, which is when `getSettingText` falls back to the default |
| Text.TrimOfPadded | index.js:32 | Trimming whitespace-padded, already-trimmed text gives that text back, whatever the padding |
| Text.TrimOfTrimmed | index.js:34 | Text with no whitespace at either end, such as every default, is left unchanged by trimming |
| Text.TrimIdempotent | index.js:384 | Trimming twice is trimming once |
| Text.ReplaceAllWithoutMatch | index.js:279 | Literal replacement of every occurrence, left to right and without overlap, returns a text that contains no occurrence of the pattern unchanged |
| Text.ReplaceSingleOccurrence | index.js:279 | A text with one occurrence of the pattern, and no other match, gets exactly that occurrence replaced by the replacement, verbatim |
| Text.ReplaceAllJsAgreesWithoutDollar | index.js:279 | JavaScript `replaceAll` and literal replacement agree on every text and pattern when the replacement contains no `$` |
| Text.ReplaceAllJsCollapsesDollars | index.js:279 | JavaScript `replaceAll` turns the replacement `$$` into one `$`, where literal replacement keeps both |
| Text.ReplaceAllJs | index.js:279 | JavaScript `replaceAll` with a string pattern returns a text that contains no occurrence of the pattern unchanged, whatever the replacement |
| Text.NatToString | index.js:207 | `toString` of a natural is a non-empty digit string with no leading zero; it has at most two digits exactly when the number is below 100 |
| Text.ParseNatToString | index.js:207 | Reading back the digits `toString` writes gives the number |
| Text.FormatTwo | index.js:207 | `formatTwo` gives at least two digits that read back as the number: exactly two below 100, and plain `toString` from 10 up |
| Clock.IsPmTextCases | index.js:211 | The AM/PM text selects PM exactly for `pm` in any letter case |
| Clock.To24h | index.js:209-214 | For hours 1 to 12 the result is an hour of the day, it is 12 or more exactly for PM, and it agrees with the input modulo 12 (12 AM is 0, 12 PM is 12) |
| Clock.DisplayHour | index.js:241 | The displayed hour is in 1 to 12 and agrees with the hour of the day modulo 12 |
| Clock.DisplayThenTo24h | index.js:241-243 | Displaying an hour of the day as hour plus AM/PM and converting back with `to24h` returns that hour |
| Clock.To24hThenDisplay | index.js:209-214 | Converting a 12-hour time and displaying it returns the same hour and AM/PM |
| Clock.To24hBijective | index.js:209-214 | `to24h` is injective on {1..12} x {AM, PM} and reaches every hour 0..23 |
| Clock.HourOf | index.js:241 | `getHours` of an instant is in 0..23 |
| Clock.MinuteOf | index.js:242 | `getMinutes` of an instant is in 0..59 |
| Clock.ClockFieldsOf | index.js:303 | An instant set to an hour and minute with seconds zeroed, today or a later day, reads back that hour and minute |
| Clock.FormatCountdown | index.js:216-223 | Negative time shows `00:00:00`; otherwise the text reads back as the whole seconds in the input, minutes and seconds are below 60, each field has at least two digits, and under 100 hours the text is 8 characters |
| Clock.AlarmTarget | index.js:300-306 | The target is the picked time today or one day later, and for a valid time it lies strictly after now and at most one day ahead |
| Clock.AlarmTargetIsNextOccurrence | index.js:305-307 | The target is the only instant at the picked time, today or tomorrow, in (now, now + 1 day]; it stays today exactly when today's time is still ahead |
| Clock.ScheduledAlarmShowsPickedTime | index.js:241-244 | The alarm panel's target line shows exactly the hour, minute and AM/PM picked in the dialog |
| Clock.AlarmTimeText | index.js:241-244 | The panel's target line is `h:mm AM` or `h:mm PM` with h in 1..12; read back with `to24h` its hour and minute are the instant's |
| Clock.ScheduledCountdownWithinDay | index.js:309 | At scheduling time the delay lies in (0, 1 day], and its countdown is an 8-character text of at most 24 hours |
| Clock.DialogDefaultAsWritten | index.js:339-342 | As written, the dialog's default is a valid dialog time that keeps the current hour and takes the next minute modulo 60 |
| Clock.DialogDefault | index.js:338-342 | The corrected default is a valid dialog time whose minute of the day is the one after the current minute, across the hour and midnight |
| Clock.DialogDefaultAsWrittenSkipsHour | index.js:339-341 | As written, when the current minute is 59 the dialog's default time fires more than 23 hours later, not within the next minute |
| Clock.DialogDefaultAsWrittenExample | index.js:339-341 | At 10:59:30 AM the dialog offers 10:00 AM, which fires 23 h 0 min 30 s later |
| Clock.DialogDefaultIsNextMinute | index.js:338-341 | The corrected default is a valid dialog time that fires within the next minute, at every time of day |
| Config.DefaultTextTrimmed | index.js:22-25 | Every default text is already trimmed and is not blank |
| Config.DefaultSettings | index.js:19-27 | Fresh settings hold every default text, an auto interval of 30 seconds and captions mode |
| Config.StoredDefaultIsRead | index.js:31-36 | A key holding its default text reads as that text |
| Config.GetSettingText | index.js:31-36 | The result is trimmed and never empty: the trimmed stored text when it is not blank, otherwise the default |
| Config.OnTextInput | index.js:122-144 | A prompt or reminder input stores the typed text under its own key only; all other settings are unchanged |
| Config.ClearedPromptFallsBack | index.js:31-36 | A prompt field cleared by the user reads as its default |
| Config.ClampInterval | index.js:106-110 | The stored interval is always in [5, 120]: NaN becomes 30, in-range values are kept, values below or above go to the bound |
| Config.ClampIntervalIdempotentMonotone | index.js:109 | Clamping twice is clamping once, and clamping preserves order |
| Config.OnIntervalChange | index.js:106-113 | The interval handler stores a value in [5, 120] and changes nothing else |
| Config.EffectiveAutoSeconds | index.js:190 | `Number(auto_interval) \|\| 30` is the stored value unless that is NaN or 0, which give 30 |
| Config.SliderIntervalIsUsed | index.js:190 | An interval stored by the slider is used as stored, so the period is in [5, 120] seconds |
| Config.NormaliseImageMode | index.js:150-151 | The stored mode is `inline` or `captions`, and `inline` exactly when `inline` was selected |
| Config.OnImageModeChange | index.js:149-153 | After the mode handler, inline mode is on exactly when `inline` was selected; nothing else changes |
| Config.NormaliseImageModeIdempotent | index.js:150-151 | Normalising a stored mode again changes nothing |
| Frame.DataUrlRoundTrip | index.js:440-441 | For a comma-free (base64) payload, `split(",")[1]` of the JPEG data URL is that payload, and rebuilding the URL from it gives the canvas's URL back |
| Frame.Payload | index.js:441 | `split(",")[1]` never contains a comma, and is empty when the URL has none |
| Frame.PayloadOfSplit | index.js:441 | `split(",")[1]` is the field between the first and second comma, or everything after the only comma |
| Session.StateInitiallyValid | index.js:155-162 | The initial variables satisfy the invariant: no stream without preview, no armed alarm timer without a target |
| Session.CaptureFrame | index.js:426-443 | A frame exists exactly when a stream is held and the video has a size; it is the data URL's payload, so the canvas's own payload for a base64 URL |
| Session.StartVideoCall | index.js:359-395 | The camera is requested only when no stream is held, and before anything else. On failure the error is shown and nothing else changes. Otherwise the call runs, the preview is shown and a pending override is consumed. The announcement (trimmed override, else the start prompt) is sent exactly when non-empty, and the skip flag is set with it. Nothing but the camera request, the error and the announcement is asked for, and nothing twice. The invariant is preserved |
| Session.StopVideoCall | index.js:397-420 | The stream is released exactly when one is held, and first; the auto timer is stopped exactly when it runs. Afterwards nothing runs, the end prompt is the last and only message sent, and the skip flag is set. Nothing but the release, the timer stop and the end prompt is asked for, and nothing twice. The invariant is preserved |
| Session.ToggleCall | index.js:553 | The call button ends a held call: the stream is released first, the timer stopped exactly when it ran, the preview hidden, the skip flag set and the end prompt sent last as the only message; nothing else in the state changes and nothing but the release, the timer stop and the prompt is asked for. Otherwise it starts one: the call runs afterwards exactly when the media API exists and the camera is granted, and then the preview is shown and the override consumed; a failed start changes nothing. The camera is requested exactly when the media API exists and before anything else, the error shown exactly when it is refused, and the announcement sent, with the skip flag set, exactly when the call starts and the announcement is non-empty; only the stream, preview, skip flag and override can change, and nothing but the camera request, the error and the announcement is asked for. Nothing is asked for twice |
| Session.ToggleTwiceOpensAndClosesCall | index.js:553 | From idle, two presses acquire and release the camera once each, send the start and then the end prompt, and leave nothing running |
| Session.StartAuto | index.js:188-193 | The loop runs afterwards; a running loop is left alone, otherwise one timer is armed with the effective period |
| Session.AutoPeriodBounds | index.js:190-191 | After the slider the timer period is 5 to 120 seconds; an unset or zero interval gives 30 seconds |
| Session.StopAuto | index.js:195-201 | The loop is stopped afterwards, with one clear exactly when it was running; nothing else changes |
| Session.AutoClick | index.js:203-205 | The auto button toggles the loop and changes nothing else in the state: it clears the one running timer, or arms one with the effective period, and asks for nothing else |
| Session.AutoSendTick | index.js:171-186 | A tick sends an empty user turn exactly when a frame is available, and then asks for a reply exactly when it also runs in inline mode; nothing else, and nothing twice |
| Session.TickFollowsCall | index.js:171-186 | A tick sends nothing once the call is stopped, and sends its empty turn right after a call starts whenever the video has a size |
| Session.ClearAlarm | index.js:250-256 | Afterwards no alarm is pending: target and reminder are cleared, and each timer is cancelled exactly when armed, once, with no other effect |
| Session.ClearAlarmIdempotent | index.js:250-256 | Clearing a cleared alarm changes nothing and cancels nothing |
| Session.ScheduleAlarm | index.js:295-313 | The previous alarm's timers are cancelled, each once and only when armed, and nothing else comes before the new timers. The new target is the next occurrence of the picked time. The one-shot timer is armed once with delay target minus now, which is in (0, 1 day] for a valid time, then the countdown refresh. The reminder is stored |
| Session.AlarmOverride | index.js:275-283 | The corrected override (reminder inserted verbatim) that the alarm transitions use: it always exists, and a template without the placeholder is used as it is. It differs from the code only for reminders with `$` (see Findings) |
| Session.AlarmOverrideAsWrittenAgrees | index.js:279 | For a reminder without `$`, the override built with JavaScript `replaceAll` equals the literal one |
| Session.AlarmOverrideAsWrittenCollapsesDollars | index.js:279 | With the bare placeholder as template, the reminder `$$` becomes `$` as written but stays `$$` in the corrected override |
| Session.AlarmOverrideInsertsReminder | index.js:276-280 | A template with one placeholder, and no other occurrence of it, gets the reminder inserted verbatim |
| Session.AlarmCall | index.js:274-285 | With no stream, the override is armed and a call started: it is consumed and announced when the call starts, and left pending when it fails, with nothing else in the state changed. The camera, when requested, is requested first. A held call is left alone with its override untouched |
| Session.AlarmCallEffects | index.js:275-285 | The alarm call asks only for the camera, its error and the non-empty alarm announcement, each at most once, and reports the error exactly when the camera is refused |
| Session.AlarmAnnouncementAsWritten | index.js:276-280 | For every reminder without `$`, the announcement the alarm call makes is exactly the trimmed override built with JavaScript `replaceAll` |
| Session.AlarmFire | index.js:269-293 | Firing spends the one-shot timer, shows the notice first and starts the auto loop. A call is started only when none is held. When it starts, the messages sent are exactly the non-empty alarm announcement and, with a frame, one empty turn, so the configured start prompt is never sent. A held call keeps its override and sends only the empty turn. A failed call sends nothing. The skip flag is set afterwards exactly when it was set before or a started call sent a non-empty announcement, and the preview is shown exactly when it was shown or a call started. The other alarm fields and the invariant are kept |
| Session.AlarmFireEffects | index.js:269-293 | Firing asks only for the notice, the camera, its error, user turns, the auto timer and a reply, and for none of them twice |
| Session.AlarmFireCameraError | index.js:275-285 | Firing reports a camera error exactly when it starts a call and the camera is refused |
| Session.AlarmFireStartsAuto | index.js:291 | Firing arms the auto timer with the configured period exactly when it was not running |
| Session.AlarmFireRequestsReply | index.js:292 | Firing asks for a reply exactly when a call is held afterwards, a frame is captured and inline mode is on |
| Session.AlarmFireOrder | index.js:284-292 | Everything the call asks for (the camera, its error, the announcement) comes before everything the auto-send loop asks for (the timer, the empty turn, the reply) |
| Session.AlarmFireAcquiresFirst | index.js:284 | When firing starts a call, the camera is requested right after the notice |
| Session.AutoAndTick | index.js:290-292 | Starting the loop and sending one tick after an alarm only sets the loop running and never acquires the camera. It arms the timer exactly when none ran, sends a message exactly when a frame is available (an empty turn), asks for a reply only then and in inline mode, and asks for nothing twice |
| Session.AutoAndTickOrder | index.js:290-292 | The auto timer, when armed, comes before the tick's turn, and a reply request is the last effect |
| Session.AlarmOverrideAsWritten | index.js:275-283 | The override exactly as the code builds it, with `replaceAll` expanding `$` patterns in the reminder: it always exists, and a template without the placeholder is used as it is |
| Session.OverrideConsumedOnce | index.js:383-386 | A pending override is announced by the first call start and reset; a second start announces the configured start prompt and requests no camera |
| Session.StopWhenIdleStillAnnounces | index.js:414-419 | Stopping with no call releases nothing but still sends the end prompt |
| Attachment.AttachSnapshot | index.js:449-518 | Only the handled message can change, and only the skip flag of the state. A missing message changes nothing. A pending skip is spent without touching the message. Otherwise a file is saved only for an eligible user message with a frame outside inline mode, and a non-empty saved path becomes the image with the auto marker cleared. On that path the host calls are exactly the file save, the media display, the chat save and the embed event, in that order, followed by one reply request exactly when the message was an auto turn or already marked |
| Attachment.AttachClearsAutoFlag | index.js:494-518 | The handler never leaves the auto marker set on a message that did not already carry it |
| Attachment.AttachIdempotent | index.js:462 | With no skip pending, running the handler again on the same message changes nothing in the chat |
| Attachment.SkipSuppressesOnce | index.js:455-459 | A pending skip leaves exactly one message alone and is spent, so the next run behaves as if no skip had been set |
| Attachment.InlineModeLeavesChat | index.js:468-471 | In inline mode the handler neither changes the chat nor saves a file |
| Attachment.AnnouncementGetsNoFrame | index.js:414-418 | The end announcement, and a non-empty start announcement, never receive a snapshot |
| Attachment.InlineInterceptor | index.js:39-62 | Only the last prompt entry can change, and only when the interceptor applies (inline mode, not quiet, last entry a user entry, a frame available). It then gains the frame's data URL as media, or as its image when it has none and the host has no media arrays |
| Attachment.InterceptedImageIsCanvasUrl | index.js:49-56 | In inline mode, with a call and a user entry last, the URL the interceptor adds (as media, or as a missing image) is exactly the canvas's JPEG data URL |
| Attachment.ModesAreExclusive | index.js:469 | For every message and generation, at least one of the snapshot handler and the interceptor leaves the chat unchanged |

## Left out

- DOM and jQuery work are not modelled: templates, buttons, icons, the alarm panel's visibility, drag and resize, and the `hide_inline` CSS class. They are presentation only; `hideInline` is kept as a stored field.
- `loadSettings` (index.js:82-104) is not modelled. It only fills in defaults and copies them into the form.
- `getUserMedia`, canvas drawing and JPEG encoding are not modelled. They are browser APIs; the canvas's data URL and the camera outcome are parameters.
- Session.CaptureFrame: a data URL without a comma, whose `split(",")[1]` is `undefined`, reads as an empty payload. The canvas always yields a comma.
- Session.CaptureFrame: a frame needs the stream variable. A stream kept only on the video element is not modelled, since the code clears the element whenever it clears the variable.
- Real timers and polling are not modelled: `setInterval`/`setTimeout`, `waitForWebcamReady`, and the `tryGenerate` retries while the host is busy. A timer is a boolean plus an effect; the retries are one `RequestGeneration` effect.
- The ordering of the asynchronous message sends and the render handlers they trigger is not modelled. The handler is a separate transition, run on the state the sender left.
- Session.ScheduleAlarm: the delay uses the same `now` as the target. The code reads the clock a second time, a few milliseconds later.
- JavaScript `Date`, time zones and DST are not modelled. An instant is milliseconds from local midnight, and a day is always 24 hours.
- Config.EffectiveAutoSeconds: infinities of `Number(...)` are not modelled. The slider and the clamp never store one.
- Clock.IsPmText: `toLowerCase` is modelled only for the letters that lower-case to `p` and `m`.
- Attachment.Message: the host's `ensureMessageMediaIsArray` normalisation and other `extra` fields are not modelled. An empty `image` or `video` string stands for a missing one, matching JavaScript truthiness.
- The unreachable `inlineAllowed` branch (index.js:473-488) is not modelled. Inline mode has already returned at index.js:469-471.
- Session.AlarmOverride: it inserts the reminder verbatim, the evidently intended behaviour (see Findings); the code's `replaceAll` expands `$` patterns in the reminder. That version is Session.AlarmOverrideAsWritten, and the two agree for every reminder without `$`.
- Session.AlarmCall: arms the corrected override, so for a reminder containing `$` its announcement is the verbatim insertion, not the text the code sends. For every other reminder it is exactly the code's text (Session.AlarmAnnouncementAsWritten).
- Session.AlarmFire: starts its call through Session.AlarmCall, and so has the same deviation for reminders containing `$`.
- Session.AlarmOverride: the branch for an empty template (index.js:281-282) is modelled but never taken, because `getSettingText` never returns an empty text.
- Exceptions caught by `try`/`catch` are modelled only for the camera request. The host calls are treated as returning normally.

The code's behaviour in four places a reader might not expect, which the model follows:

- `stopVideoCall` also stops the auto-send loop.
- Starting a call while one is held sends the start announcement again.
- `stopVideoCall` sends the end prompt even when no call was running.
- Start and end announcements are always sent, because the defaults are non-empty and a blank setting falls back to them. Only an override that trims to nothing is silent.

## Findings

| source | as written | input that shows it | evidently intended | confidence | as-written member | corrected member |
|---|---|---|---|---|---|---|
| index.js:339-341 | The dialog's default minute is `(getMinutes() + 1) % 60` with the current hour, so minute 59 wraps to 0 without advancing the hour | Opening the dialog at 10:59:30 AM pre-selects 10:00 AM, which fires 23 h 0 min 30 s later | The next minute, carried into the hour and across midnight ("Default to next minute"), which fires within one minute | high, not executed | Clock.DialogDefaultAsWrittenSkipsHour | Clock.DialogDefaultIsNextMinute |
| index.js:279 | `template.replaceAll("{{alarm_reminder}}", reminder)` passes the user's reminder as a replacement string, so `$$`, `$&`, `` $` `` and `$'` in it are expanded | The reminder `$$` with the template `{{alarm_reminder}}` gives `$` | The reminder inserted verbatim, as for every reminder without `$` | medium, not executed | Session.AlarmOverrideAsWrittenCollapsesDollars | Session.AlarmOverrideInsertsReminder |

=== FILE: attachment.dfy ===
/** Putting a captured frame into the chat: the handler run after a user
    message is rendered (captions mode saves the frame to a file and shows
    it on the message) and the generation interceptor (inline mode adds
    the frame to the outgoing prompt's last user entry). */
module Attachment {
  import opened Wrappers
  import opened Config
  import opened Frame
  import opened Session

  /** A chat entry, reduced to what the add-on reads and writes. An empty
      `image` or `video` is an absent one; `autoFlag` is the
      `extra.video_calls_auto` marker. */
  datatype Message = Message(
    isUser: bool,
    mes: string,
    image: string,
    video: string,
    inlineImage: bool,
    autoFlag: bool,
    media: seq<string>)

  /** A user message that carries no image and no video yet. */
  predicate Eligible(m: Message) {
    m.isUser && m.image == [] && m.video == []
  }

  datatype Outcome = Outcome(state: State, chat: seq<Message>, effects: seq<Effect>)

  /** The handler reaches the file save: the message exists, no skip is
      pending, it is eligible, a frame is available and the mode is not
      inline. */
  predicate ReachesSave(s: State, cfg: Settings, chat: seq<Message>, id: int, canvas: Option<string>) {
    && 0 <= id < |chat|
    && !s.skipNextAttach
    && Eligible(chat[id])
    && CaptureFrame(s, canvas).Some?
    && !IsInlineMode(cfg)
  }

  /** The empty user turn the auto-send loop posts, while the loop runs. */
  predicate WasAutoMessage(s: State, m: Message) {
    m.isUser && m.mes == [] && s.autoRunning
  }

  /** `attachWebcamSnapshotToMessage`. `savedPath` is what the host's file
      save returns for the frame (empty when it fails). */
  function AttachSnapshot(s: State, cfg: Settings, chat: seq<Message>, id: int, canvas: Option<string>, savedPath: string): (r: Outcome)
    ensures |r.chat| == |chat|
    ensures forall j :: 0 <= j < |chat| && j != id ==> r.chat[j] == chat[j]
    ensures r.state == s.(skipNextAttach := s.skipNextAttach && !(0 <= id < |chat|))
    ensures !ReachesSave(s, cfg, chat, id, canvas) ==> r.chat == chat && r.effects == []
    ensures ReachesSave(s, cfg, chat, id, canvas) ==>
              |r.effects| > 0 && r.effects[0] == SaveImageFile(CaptureFrame(s, canvas).value)
    ensures ReachesSave(s, cfg, chat, id, canvas) && savedPath == [] ==>
              r.chat == chat && r.effects == [SaveImageFile(CaptureFrame(s, canvas).value)]
    ensures ReachesSave(s, cfg, chat, id, canvas) && savedPath != [] ==>
              && r.chat[id] == chat[id].(image := savedPath, inlineImage := true, autoFlag := false)
              && ShowMedia(id) in r.effects && SaveChat in r.effects && EmitFileEmbedded(id) in r.effects
              && ((RequestGeneration in r.effects) <==> WasAutoMessage(s, chat[id]) || chat[id].autoFlag)
              && r.effects == [SaveImageFile(CaptureFrame(s, canvas).value), ShowMedia(id), SaveChat, EmitFileEmbedded(id)]
                              + (if WasAutoMessage(s, chat[id]) || chat[id].autoFlag then [RequestGeneration] else [])
    ensures forall t :: SendUserMessage(t) !in r.effects
  {
    if !(0 <= id < |chat|) then Outcome(s, chat, [])
    else if s.skipNextAttach then Outcome(s.(skipNextAttach := false), chat, [])
    else
      var m := chat[id];
      if !Eligible(m) then Outcome(s, chat, [])
      else
        match CaptureFrame(s, canvas)
        case None => Outcome(s, chat, [])
        case Some(frame) =>
          if IsInlineMode(cfg) then Outcome(s, chat, [])
          else if savedPath == [] then Outcome(s, chat, [SaveImageFile(frame)])
          else Saved(s, chat, id, frame, savedPath)
  }

  /** The end of the handler once the file is saved: the message shows the
      image, the chat is saved and the embed announced, and a marked or
      auto message asks for one reply, its marker cleared. */
  function Saved(s: State, chat: seq<Message>, id: int, frame: string, savedPath: string): (r: Outcome)
    requires 0 <= id < |chat|
    ensures r.state == s
    ensures r.chat == chat[id := chat[id].(image := savedPath, inlineImage := true, autoFlag := false)]
    ensures r.effects == [SaveImageFile(frame), ShowMedia(id), SaveChat, EmitFileEmbedded(id)]
                         + (if WasAutoMessage(s, chat[id]) || chat[id].autoFlag then [RequestGeneration] else [])
  {
    var m := chat[id];
    var flagged := m.(image := savedPath, inlineImage := true, autoFlag := m.autoFlag || WasAutoMessage(s, m));
    var shown := [SaveImageFile(frame), ShowMedia(id), SaveChat, EmitFileEmbedded(id)];
    if flagged.autoFlag then
      Outcome(s, chat[id := flagged.(autoFlag := false)], shown + [RequestGeneration])
    else
      Outcome(s, chat[id := flagged], shown)
  }

  /** After the handler no message carries the auto marker it has seen, so
      one auto message prompts at most one reply. */
  lemma AttachClearsAutoFlag(s: State, cfg: Settings, chat: seq<Message>, id: int, canvas: Option<string>, savedPath: string)
    requires 0 <= id < |chat| && !chat[id].autoFlag
    ensures !AttachSnapshot(s, cfg, chat, id, canvas, savedPath).chat[id].autoFlag
  {
  }

  /** With no skip pending, running the handler again on the same message
      changes nothing in the chat: an attached message already carries an
      image. */
  lemma AttachIdempotent(s: State, cfg: Settings, chat: seq<Message>, id: int, canvas: Option<string>, savedPath: string)
    requires !s.skipNextAttach
    ensures var r := AttachSnapshot(s, cfg, chat, id, canvas, savedPath);
            AttachSnapshot(r.state, cfg, r.chat, id, canvas, savedPath).chat == r.chat
  {
    var r := AttachSnapshot(s, cfg, chat, id, canvas, savedPath);
    if ReachesSave(s, cfg, chat, id, canvas) && savedPath != [] {
      assert !Eligible(r.chat[id]);
    }
  }

  /** A pending skip suppresses exactly the next attachment: the first
      message is left alone and the flag is spent, so an identical second
      message is handled as if no skip had been set. */
  lemma SkipSuppressesOnce(s: State, cfg: Settings, chat: seq<Message>, id: int, canvas: Option<string>, savedPath: string)
    requires s.skipNextAttach && 0 <= id < |chat|
    ensures var r := AttachSnapshot(s, cfg, chat, id, canvas, savedPath);
            && r.chat == chat && r.effects == []
            && !r.state.skipNextAttach
            && AttachSnapshot(r.state, cfg, chat, id, canvas, savedPath)
               == AttachSnapshot(s.(skipNextAttach := false), cfg, chat, id, canvas, savedPath)
  {
  }

  /** In inline mode the handler never touches the chat or saves a file; the
      frame reaches the model through the interceptor instead. */
  lemma InlineModeLeavesChat(s: State, cfg: Settings, chat: seq<Message>, id: int, canvas: Option<string>, savedPath: string)
    requires IsInlineMode(cfg)
    ensures AttachSnapshot(s, cfg, chat, id, canvas, savedPath).chat == chat
    ensures AttachSnapshot(s, cfg, chat, id, canvas, savedPath).effects == []
  {
  }

  /** The start and end announcements are never given a frame: sending one
      sets the skip, and the handler run for that message spends it. */
  lemma AnnouncementGetsNoFrame(s: State, cfg: Settings, camera: CameraOutcome, chat: seq<Message>,
                                 canvas: Option<string>, savedPath: string)
    requires |chat| > 0
    ensures var stop := StopVideoCall(s, cfg);
            AttachSnapshot(stop.state, cfg, chat, |chat| - 1, canvas, savedPath).chat == chat
    ensures var start := StartVideoCall(s, cfg, true, camera);
            CallStarts(s, true, camera) && Announcement(s, cfg) != [] ==>
              AttachSnapshot(start.state, cfg, chat, |chat| - 1, canvas, savedPath).chat == chat
  {
  }

  // ---------------------------------------------------------------------
  // Generation interceptor
  // ---------------------------------------------------------------------

  /** The interceptor acts: inline mode, not a quiet generation, a chat
      whose last entry is a user entry, and a frame to add. */
  predicate InterceptorApplies(s: State, cfg: Settings, chat: seq<Message>, genType: string, canvas: Option<string>) {
    && IsInlineMode(cfg)
    && genType != "quiet"
    && |chat| > 0
    && chat[|chat| - 1].isUser
    && CaptureFrame(s, canvas).Some?
  }

  /** `videoCallsInlineInterceptor`, over the prompt's copy of the chat.
      `hostHasMediaArrays` says whether the host offers
      `ensureMessageMediaIsArray`: with it the frame is appended to the
      entry's media; without it the frame becomes the entry's image unless
      it already has one. */
  function InlineInterceptor(s: State, cfg: Settings, chat: seq<Message>, genType: string,
                             canvas: Option<string>, hostHasMediaArrays: bool): (r: seq<Message>)
    ensures |r| == |chat|
    ensures forall j :: 0 <= j < |chat| - 1 ==> r[j] == chat[j]
    ensures !InterceptorApplies(s, cfg, chat, genType, canvas) ==> r == chat
    ensures InterceptorApplies(s, cfg, chat, genType, canvas) ==>
              var last := chat[|chat| - 1];
              var url := DataUrl(CaptureFrame(s, canvas).value);
              r[|chat| - 1] == (if hostHasMediaArrays then last.(media := last.media + [url])
                                else if last.image == [] then last.(image := url)
                                else last)
  {
    if !IsInlineMode(cfg) || genType == "quiet" || |chat| == 0 then chat
    else
      var last := chat[|chat| - 1];
      if !last.isUser then chat
      else match CaptureFrame(s, canvas)
        case None => chat
        case Some(frame) =>
          var url := DataUrl(frame);
          if hostHasMediaArrays then chat[|chat| - 1 := last.(media := last.media + [url])]
          else if last.image == [] then chat[|chat| - 1 := last.(image := url)]
          else chat
  }

  /** The image the interceptor adds is the canvas's own JPEG data URL. */
  lemma InterceptedImageIsCanvasUrl(s: State, cfg: Settings, chat: seq<Message>, genType: string,
                                    payload: string, hostHasMediaArrays: bool)
    requires ',' !in payload
    requires IsInlineMode(cfg) && genType != "quiet" && s.streamPresent
    requires |chat| > 0 && chat[|chat| - 1].isUser
    ensures var r := InlineInterceptor(s, cfg, chat, genType, Some(DataUrl(payload)), hostHasMediaArrays);
            && (hostHasMediaArrays ==> r[|chat| - 1].media == chat[|chat| - 1].media + [DataUrl(payload)])
            && (!hostHasMediaArrays && chat[|chat| - 1].image == [] ==> r[|chat| - 1].image == DataUrl(payload))
  {
  }

  /** Outside inline mode the two paths never both act on one message: the
      interceptor leaves the prompt alone, and in inline mode the handler
      leaves the chat alone. */
  lemma ModesAreExclusive(s: State, cfg: Settings, chat: seq<Message>, id: int, genType: string,
                          canvas: Option<string>, savedPath: string, hostHasMediaArrays: bool)
    ensures InlineInterceptor(s, cfg, chat, genType, canvas, hostHasMediaArrays) == chat
            || AttachSnapshot(s, cfg, chat, id, canvas, savedPath).chat == chat
  {
  }
}

=== FILE: clock.dfy ===
/** Integer time arithmetic of the wake-up alarm: the 12/24-hour clock
    conversions, the countdown text and the "next occurrence" rule.

    Instants are milliseconds counted from the local midnight that starts
    "today"; an instant at or past `DayMs` lies tomorrow. The current time is
    always an instant of today, `0 <= now < DayMs`. */
module Clock {
  import opened Text

  const SecondMs: int := 1000
  const MinuteMs: int := 60 * SecondMs
  const HourMs: int := 60 * MinuteMs
  const DayMs: int := 24 * HourMs

  /** A time as the alarm dialog shows it: 12-hour clock plus AM/PM. */
  datatype ClockTime = ClockTime(hour12: int, minute: int, isPm: bool)

  // ---------------------------------------------------------------------
  // 12-hour <-> 24-hour
  // ---------------------------------------------------------------------

  /** `String(ampm).toLowerCase() === 'pm'`. No code point other than `P`
      and `p` (resp. `M`, `m`) lower-cases to `p` (resp. `m`). */
  predicate IsPmText(ampm: string) {
    |ampm| == 2 && (ampm[0] == 'p' || ampm[0] == 'P') && (ampm[1] == 'm' || ampm[1] == 'M')
  }

  /** Exactly the four spellings of "pm" in any case select PM. */
  lemma IsPmTextCases(ampm: string)
    ensures IsPmText(ampm) <==> ampm == "pm" || ampm == "pM" || ampm == "Pm" || ampm == "PM"
  {
    if IsPmText(ampm) {
      assert ampm == [ampm[0], ampm[1]];
    }
  }

  /** `to24h`: 12 AM is hour 0, 12 PM is hour 12, other PM hours gain 12. */
  function To24h(hour12: int, isPm: bool): (h: int)
    ensures 1 <= hour12 <= 12 ==> 0 <= h < 24 && (h >= 12 <==> isPm)
    ensures 1 <= hour12 <= 12 ==> h % 12 == hour12 % 12
  {
    if hour12 == 12 then (if isPm then 12 else 0)
    else if isPm then hour12 + 12
    else hour12
  }

  /** The hour the alarm panel and the dialog display for hour-of-day `h`:
      `((h + 11) % 12) + 1`. */
  function DisplayHour(h: int): (h12: int)
    requires 0 <= h < 24
    ensures 1 <= h12 <= 12
    ensures h12 % 12 == h % 12
  {
    ((h + 11) % 12) + 1
  }

  /** Whether hour-of-day `h` is shown as PM (`getHours() >= 12`). */
  predicate IsPmHour(h: int) {
    h >= 12
  }

  /** Displaying an hour of the day and converting it back is the identity. */
  lemma DisplayThenTo24h(h: int)
    requires 0 <= h < 24
    ensures To24h(DisplayHour(h), IsPmHour(h)) == h
  {
  }

  /** Converting a 12-hour time and displaying it gives the same time. */
  lemma To24hThenDisplay(hour12: int, isPm: bool)
    requires 1 <= hour12 <= 12
    ensures 0 <= To24h(hour12, isPm) < 24
    ensures DisplayHour(To24h(hour12, isPm)) == hour12
    ensures IsPmHour(To24h(hour12, isPm)) == isPm
  {
  }

  /** `to24h` is a bijection from {1..12} x {AM, PM} onto {0..23}. */
  lemma To24hBijective(a: int, p: bool, b: int, q: bool, h: int)
    requires 1 <= a <= 12 && 1 <= b <= 12 && 0 <= h < 24
    ensures To24h(a, p) == To24h(b, q) ==> a == b && p == q
    ensures exists c, r :: 1 <= c <= 12 && To24h(c, r) == h
  {
    To24hThenDisplay(a, p);
    To24hThenDisplay(b, q);
    DisplayThenTo24h(h);
    assert 1 <= DisplayHour(h) <= 12;
  }

  // ---------------------------------------------------------------------
  // Clock fields of an instant (Date.getHours / Date.getMinutes)
  // ---------------------------------------------------------------------

  function HourOf(t: int): (h: int)
    ensures 0 <= h < 24
  {
    (t % DayMs) / HourMs
  }

  function MinuteOf(t: int): (m: int)
    ensures 0 <= m < 60
  {
    (t % HourMs) / MinuteMs
  }

  /** Division by a positive constant is determined by quotient and remainder. */
  lemma DivMod(x: int, d: int, q: int, r: int)
    requires d > 0 && 0 <= r < d && x == q * d + r
    ensures x / d == q && x % d == r
  {
    var k := x / d - q;
    assert k * d == r - x % d;
  }

  /** An instant built from an hour and a minute (seconds zeroed) reads back
      that hour and minute, whether it lies today or tomorrow. */
  lemma ClockFieldsOf(h: int, m: int, days: int)
    requires 0 <= h < 24 && 0 <= m < 60 && 0 <= days
    ensures HourOf(days * DayMs + h * HourMs + m * MinuteMs) == h
    ensures MinuteOf(days * DayMs + h * HourMs + m * MinuteMs) == m
  {
    var t := days * DayMs + h * HourMs + m * MinuteMs;
    DivMod(t, DayMs, days, h * HourMs + m * MinuteMs);
    DivMod(h * HourMs + m * MinuteMs, HourMs, h, m * MinuteMs);
    DivMod(t, HourMs, days * 24 + h, m * MinuteMs);
    DivMod(m * MinuteMs, MinuteMs, m, 0);
  }

  // ---------------------------------------------------------------------
  // Countdown text
  // ---------------------------------------------------------------------

  /** Text of the shape `H..H:MM:SS`, all other characters digits. */
  predicate IsCountdownText(r: string) {
    && |r| >= 8 && r[|r| - 3] == ':' && r[|r| - 6] == ':'
    && AllDigits(r[..|r| - 6]) && AllDigits(r[|r| - 5..|r| - 3]) && AllDigits(r[|r| - 2..])
  }

  function CountdownHours(r: string): nat
    requires IsCountdownText(r)
  {
    ParseDigits(r[..|r| - 6])
  }

  function CountdownMinutes(r: string): nat
    requires IsCountdownText(r)
  {
    ParseDigits(r[|r| - 5..|r| - 3])
  }

  function CountdownSeconds(r: string): nat
    requires IsCountdownText(r)
  {
    ParseDigits(r[|r| - 2..])
  }

  /** The number of whole seconds a countdown text reads as. */
  function CountdownValue(r: string): nat
    requires IsCountdownText(r)
  {
    CountdownHours(r) * 3600 + CountdownMinutes(r) * 60 + CountdownSeconds(r)
  }

  /** `formatCountdown`: negative time is shown as zero; otherwise the text
      reads back as the whole seconds in `ms`, minutes and seconds below 60,
      each field at least two digits. */
  function FormatCountdown(ms: int): (r: string)
    ensures IsCountdownText(r)
    ensures CountdownValue(r) == (if ms < 0 then 0 else ms / SecondMs)
    ensures CountdownMinutes(r) < 60 && CountdownSeconds(r) < 60
    ensures ms < 0 ==> r == "00:00:00"
    ensures ms < 100 * HourMs ==> |r| == 8
  {
    var clamped := if ms < 0 then 0 else ms;
    var totalSec := clamped / SecondMs;
    var a := FormatTwo(totalSec / 3600);
    var b := FormatTwo((totalSec % 3600) / 60);
    var c := FormatTwo(totalSec % 60);
    CountdownOfJoin(a, b, c);
    SecondsSplit(totalSec);
    assert ms < 0 ==> a == "00" && b == "00" && c == "00";
    a + ":" + b + ":" + c
  }

  /** Whole seconds split into hours, minutes below 60 and seconds below 60. */
  lemma SecondsSplit(t: nat)
    ensures t == (t / 3600) * 3600 + ((t % 3600) / 60) * 60 + t % 60
    ensures (t % 3600) / 60 < 60 && t % 60 < 60
  {
  }

  /** Three digit fields joined by colons read back field by field. */
  lemma CountdownOfJoin(a: string, b: string, c: string)
    requires |a| >= 2 && |b| == 2 && |c| == 2
    requires AllDigits(a) && AllDigits(b) && AllDigits(c)
    ensures var r := a + ":" + b + ":" + c;
            && |r| == |a| + 6 && IsCountdownText(r)
            && CountdownHours(r) == ParseDigits(a)
            && CountdownMinutes(r) == ParseDigits(b)
            && CountdownSeconds(r) == ParseDigits(c)
  {
    var r := a + ":" + b + ":" + c;
    ColonJoin(a, b, c);
    CountdownFields(r, a, b, c);
  }

  /** Where the fields of `H:MM:SS` sit in the joined text. */
  lemma ColonJoin(a: string, b: string, c: string)
    requires |b| == 2 && |c| == 2
    ensures var r := a + ":" + b + ":" + c;
            && |r| == |a| + 6 && r[|r| - 6] == ':' && r[|r| - 3] == ':'
            && r[..|r| - 6] == a && r[|r| - 5..|r| - 3] == b && r[|r| - 2..] == c
  {
    var r := a + ":" + b + ":" + c;
    var tail := [':'] + b + [':'] + c;
    assert r == a + tail;
    assert r[|a|] == tail[0] && r[|a| + 3] == tail[3];
    assert r[|a| + 1..|a| + 3] == tail[1..3];
    assert r[|a| + 4..] == tail[4..];
  }

  /** A text with colons in the countdown places and digit strings between
      them is a countdown text whose fields read as those strings. */
  lemma CountdownFields(r: string, a: string, b: string, c: string)
    requires |r| >= 8 && r[|r| - 6] == ':' && r[|r| - 3] == ':'
    requires r[..|r| - 6] == a && r[|r| - 5..|r| - 3] == b && r[|r| - 2..] == c
    requires AllDigits(a) && AllDigits(b) && AllDigits(c)
    ensures IsCountdownText(r)
    ensures CountdownHours(r) == ParseDigits(a)
    ensures CountdownMinutes(r) == ParseDigits(b)
    ensures CountdownSeconds(r) == ParseDigits(c)
  {
  }

  // ---------------------------------------------------------------------
  // Next occurrence of an alarm time
  // ---------------------------------------------------------------------

  /** Today's date with the clock set to `hour24:minute:00.000`; like
      `Date.setHours`, out-of-range fields carry over arithmetically. */
  function TodayAt(hour24: int, minute: int): int {
    hour24 * HourMs + minute * MinuteMs
  }

  /** A time picked in the dialog lies within one day. */
  lemma PickedTimeInDay(hour12: int, minute: int, ampm: string)
    ensures 1 <= hour12 <= 12 && 0 <= minute < 60 ==> 0 <= TodayAt(To24h(hour12, IsPmText(ampm)), minute) < DayMs
  {
  }

  /** The alarm target `scheduleAlarm` computes: today at the given time when
      that is strictly after `now`, otherwise the same time tomorrow. For a
      valid time the delay lies in (0, 1 day]. */
  function AlarmTarget(hour24: int, minute: int, now: int): (t: int)
    requires 0 <= now < DayMs
    ensures t == TodayAt(hour24, minute) || t == TodayAt(hour24, minute) + DayMs
    ensures 0 <= TodayAt(hour24, minute) < DayMs ==> now < t <= now + DayMs
  {
    var today := TodayAt(hour24, minute);
    if today <= now then today + DayMs else today
  }

  /** The target is the only instant at that clock time, today or tomorrow,
      within one day after `now`: "today if still ahead, else tomorrow". */
  lemma AlarmTargetIsNextOccurrence(hour24: int, minute: int, now: int, t: int)
    requires 0 <= now < DayMs
    requires 0 <= TodayAt(hour24, minute) < DayMs
    requires t == TodayAt(hour24, minute) || t == TodayAt(hour24, minute) + DayMs
    requires now < t <= now + DayMs
    ensures t == AlarmTarget(hour24, minute, now)
    ensures t == TodayAt(hour24, minute) <==> TodayAt(hour24, minute) > now
  {
  }

  /** The text of the alarm panel's target line, `${hour12}:${MM} ${AM|PM}`:
      read back with `to24h`, it names the instant's hour and minute. */
  function AlarmTimeText(t: int): (r: string)
    ensures |r| >= 7 && r[|r| - 6] == ':' && r[|r| - 3] == ' '
    ensures r[|r| - 2..] == "PM" || r[|r| - 2..] == "AM"
    ensures AllDigits(r[..|r| - 6]) && 1 <= ParseDigits(r[..|r| - 6]) <= 12
    ensures To24h(ParseDigits(r[..|r| - 6]), r[|r| - 2..] == "PM") == HourOf(t)
    ensures AllDigits(r[|r| - 5..|r| - 3]) && ParseDigits(r[|r| - 5..|r| - 3]) == MinuteOf(t)
  {
    var h := HourOf(t);
    var hour := NatToString(DisplayHour(h));
    var minute := FormatTwo(MinuteOf(t));
    var suffix := if IsPmHour(h) then "PM" else "AM";
    var r := hour + ":" + minute + " " + suffix;
    TimeTextLayout(hour, minute, suffix);
    ParseNatToString(DisplayHour(h));
    DisplayThenTo24h(h);
    assert suffix == "PM" <==> IsPmHour(h);
    r
  }

  /** Where the fields of `${hour}:${minute} ${suffix}` sit, counted from
      the end. */
  lemma TimeTextLayout(hour: string, minute: string, suffix: string)
    requires |minute| == 2 && |suffix| == 2
    ensures var r := hour + ":" + minute + " " + suffix;
            && |r| == |hour| + 6
            && r[..|r| - 6] == hour && r[|r| - 6] == ':'
            && r[|r| - 5..|r| - 3] == minute && r[|r| - 3] == ' '
            && r[|r| - 2..] == suffix
  {
  }

  /** The alarm panel shows exactly the time that was picked in the dialog. */
  lemma ScheduledAlarmShowsPickedTime(hour12: int, minute: int, ampm: string, now: int)
    requires 1 <= hour12 <= 12 && 0 <= minute < 60
    requires 0 <= now < DayMs
    ensures AlarmTimeText(AlarmTarget(To24h(hour12, IsPmText(ampm)), minute, now))
            == NatToString(hour12) + ":" + FormatTwo(minute) + " " + (if IsPmText(ampm) then "PM" else "AM")
  {
    var pm := IsPmText(ampm);
    var h := To24h(hour12, pm);
    To24hThenDisplay(hour12, pm);
    var t := AlarmTarget(h, minute, now);
    var days := if t == TodayAt(h, minute) then 0 else 1;
    assert t == days * DayMs + h * HourMs + minute * MinuteMs;
    ClockFieldsOf(h, minute, days);
    assert HourOf(t) == h && MinuteOf(t) == minute;
    assert DisplayHour(HourOf(t)) == hour12 && IsPmHour(HourOf(t)) == pm;
  }

  /** At schedule time the delay lies in (0, 1 day] and its countdown is a
      full `HH:MM:SS` text of at most 24 hours. */
  lemma ScheduledCountdownWithinDay(hour12: int, minute: int, ampm: string, now: int)
    requires 1 <= hour12 <= 12 && 0 <= minute < 60
    requires 0 <= now < DayMs
    ensures var delay := AlarmTarget(To24h(hour12, IsPmText(ampm)), minute, now) - now;
            0 < delay <= DayMs && |FormatCountdown(delay)| == 8
            && CountdownValue(FormatCountdown(delay)) <= 24 * 3600
  {
    var h := To24h(hour12, IsPmText(ampm));
    assert 0 <= TodayAt(h, minute) < DayMs;
    var delay := AlarmTarget(h, minute, now) - now;
    assert 0 < delay <= DayMs;
    var r := FormatCountdown(delay);
    assert CountdownValue(r) == delay / SecondMs;
  }

  // ---------------------------------------------------------------------
  // Default time offered by the alarm dialog
  // ---------------------------------------------------------------------

  /** As written: the dialog pre-selects the current hour and
      `(getMinutes() + 1) % 60`, without carrying into the hour. */
  function DialogDefaultAsWritten(now: int): (c: ClockTime)
    requires 0 <= now < DayMs
    ensures 1 <= c.hour12 <= 12 && 0 <= c.minute < 60
    ensures To24h(c.hour12, c.isPm) == HourOf(now)
    ensures c.minute == (MinuteOf(now) + 1) % 60
  {
    DisplayThenTo24h(HourOf(now));
    ClockTime(DisplayHour(HourOf(now)), (MinuteOf(now) + 1) % 60, IsPmHour(HourOf(now)))
  }

  /** The next whole minute after `now`, carried into the hour and across
      midnight. */
  function DialogDefault(now: int): (c: ClockTime)
    requires 0 <= now < DayMs
    ensures 1 <= c.hour12 <= 12 && 0 <= c.minute < 60
    ensures To24h(c.hour12, c.isPm) * 60 + c.minute == (HourOf(now) * 60 + MinuteOf(now) + 1) % (24 * 60)
  {
    var next := (HourOf(now) * 60 + MinuteOf(now) + 1) % (24 * 60);
    DisplayThenTo24h(next / 60);
    ClockTime(DisplayHour(next / 60), next % 60, IsPmHour(next / 60))
  }

  /** The delay until the alarm fires when a dialog time is confirmed at
      `now`. */
  function DelayFor(c: ClockTime, now: int): int
    requires 0 <= now < DayMs
  {
    AlarmTarget(To24h(c.hour12, c.isPm), c.minute, now) - now
  }

  /** The clock fields of `now` spell its minute of the day. */
  lemma MinuteOfDay(now: int)
    requires 0 <= now < DayMs
    ensures HourOf(now) * 60 + MinuteOf(now) == now / MinuteMs
  {
    var q := now / HourMs;
    var rem := now % HourMs;
    var m := rem / MinuteMs;
    DivMod(now, DayMs, 0, now);
    DivMod(now, MinuteMs, q * 60 + m, rem % MinuteMs);
  }

  /** In the last minute of an hour the as-written default lies almost a day
      ahead instead of within the next minute (for example 10:59:30 AM
      offers 10:00 AM, which fires tomorrow). */
  lemma DialogDefaultAsWrittenSkipsHour(now: int)
    requires 0 <= now < DayMs
    requires MinuteOf(now) == 59
    ensures DelayFor(DialogDefaultAsWritten(now), now) > 23 * HourMs
  {
    var h := HourOf(now);
    DisplayThenTo24h(h);
    MinuteOfDay(now);
  }

  lemma DialogDefaultAsWrittenExample()
    ensures DialogDefaultAsWritten(10 * HourMs + 59 * MinuteMs + 30 * SecondMs) == ClockTime(10, 0, false)
    ensures DelayFor(ClockTime(10, 0, false), 10 * HourMs + 59 * MinuteMs + 30 * SecondMs)
            == 23 * HourMs + 30 * SecondMs
  {
    ClockFieldsOf(10, 59, 0);
    DivMod(10 * HourMs + 59 * MinuteMs + 30 * SecondMs, DayMs, 0, 10 * HourMs + 59 * MinuteMs + 30 * SecondMs);
    DivMod(10 * HourMs + 59 * MinuteMs + 30 * SecondMs, HourMs, 10, 59 * MinuteMs + 30 * SecondMs);
    DivMod(59 * MinuteMs + 30 * SecondMs, MinuteMs, 59, 30 * SecondMs);
  }

  /** The corrected default always fires within the next minute. */
  lemma DialogDefaultIsNextMinute(now: int)
    requires 0 <= now < DayMs
    ensures 1 <= DialogDefault(now).hour12 <= 12 && 0 <= DialogDefault(now).minute < 60
    ensures 0 < DelayFor(DialogDefault(now), now) <= MinuteMs
  {
    MinuteOfDay(now);
    var mod := now / MinuteMs;
    var next := (mod + 1) % (24 * 60);
    DisplayThenTo24h(next / 60);
    assert TodayAt(next / 60, next % 60) == next * MinuteMs;
    NextMinuteTarget(now, mod, next * MinuteMs);
  }

  /** The start of the minute after the one holding `now`, taken modulo a
      day, is at most a minute ahead once wrapped into the future. */
  lemma NextMinuteTarget(now: int, mod: int, t: int)
    requires 0 <= now < DayMs && mod == now / MinuteMs
    requires t == ((mod + 1) % (24 * 60)) * MinuteMs
    ensures 0 <= t < DayMs
    ensures 0 < (if t <= now then t + DayMs else t) - now <= MinuteMs
  {
    var p := mod * MinuteMs;
    assert p <= now < p + MinuteMs;
    if mod + 1 < 24 * 60 {
      assert t == p + MinuteMs;
    } else {
      assert t == 0 && p == DayMs - MinuteMs;
    }
  }
}

=== FILE: config.dfy ===
/** The add-on's settings as the host stores them, their defaults, and the
    normalisation the settings handlers and readers apply. */
module Config {
  import opened Wrappers
  import opened Text

  /** A JavaScript number as `Number(...)` yields it. A range input never
      produces an infinity, so infinities are not modelled. */
  datatype JsNumber = NaN | Num(value: real)

  /** The four free-text settings read through `getSettingText`. */
  datatype TextKey = StartPrompt | EndPrompt | AlarmStartPrompt | AlarmDefaultReminder

  /** The stored settings object; `None` is a missing (`undefined`/`null`)
      entry. `hide_inline` only toggles a CSS class and is kept for
      completeness. */
  datatype Settings = Settings(
    hideInline: bool,
    autoInterval: JsNumber,
    startPrompt: Option<string>,
    endPrompt: Option<string>,
    alarmStartPrompt: Option<string>,
    alarmDefaultReminder: Option<string>,
    imageMode: Option<string>)

  /** The placeholder the alarm start template substitutes. */
  const ReminderPlaceholder: string := "{{alarm_reminder}}"

  const DefaultIntervalSeconds: real := 30.0
  const MinIntervalSeconds: real := 5.0
  const MaxIntervalSeconds: real := 120.0

  const DefaultStartPrompt: string := "[{{user}} has started a video call]"
  const DefaultEndPrompt: string := "[{{user}} has ended the video call]"
  const AlarmPromptHead: string :=
    "[{{user}}'s alarm is going off! "
    + "It's time for a video call. "
    + "{{char}} initiated a video call with {{user}} to help them.\n\n"
    + "{{user}} left the following note as a reminder: "
  const DefaultAlarmStartPrompt: string := AlarmPromptHead + ReminderPlaceholder + " ]"
  const DefaultAlarmReminder: string :=
    "Hey! "
    + "I'm setting an alarm for the time I need to wake up. "
    + "Help me wake up, and don't stop calling until you see me front and center in the webcam!"

  const Defaults: Settings := Settings(
    false, Num(DefaultIntervalSeconds),
    Some(DefaultStartPrompt), Some(DefaultEndPrompt),
    Some(DefaultAlarmStartPrompt), Some(DefaultAlarmReminder),
    Some("captions"))

  function StoredText(s: Settings, key: TextKey): Option<string> {
    match key
    case StartPrompt => s.startPrompt
    case EndPrompt => s.endPrompt
    case AlarmStartPrompt => s.alarmStartPrompt
    case AlarmDefaultReminder => s.alarmDefaultReminder
  }

  function DefaultText(key: TextKey): string {
    match key
    case StartPrompt => DefaultStartPrompt
    case EndPrompt => DefaultEndPrompt
    case AlarmStartPrompt => DefaultAlarmStartPrompt
    case AlarmDefaultReminder => DefaultAlarmReminder
  }

  /** Every default text is already trimmed and not blank. */
  lemma DefaultTextTrimmed(key: TextKey)
    ensures !AllSpace(DefaultText(key)) && Trimmed(DefaultText(key))
  {
    var d := DefaultText(key);
    assert d[0] == '[' || d[0] == 'H';
    assert d[|d| - 1] == ']' || d[|d| - 1] == '!';
  }

  /** Fresh settings hold every default text (so `getSettingText` reads
      each of them, by `StoredDefaultIsRead`), an auto interval of 30
      seconds and captions mode. */
  lemma DefaultSettings()
    ensures forall k :: StoredText(Defaults, k) == Some(DefaultText(k))
    ensures EffectiveAutoSeconds(Defaults.autoInterval) == DefaultIntervalSeconds
    ensures !IsInlineMode(Defaults)
  {
  }

  /** A key holding its default text, as in fresh settings, reads as that
      text. */
  lemma StoredDefaultIsRead(s: Settings, key: TextKey)
    requires StoredText(s, key) == Some(DefaultText(key))
    ensures GetSettingText(s, key) == DefaultText(key)
  {
    DefaultTextTrimmed(key);
    TrimOfTrimmed(DefaultText(key));
  }

  /** `getSettingText`: the stored text trimmed, or the default when the
      stored text is missing or blank. The code trims the default too, which
      leaves it unchanged (`DefaultTextTrimmed`, `TrimOfTrimmed`). The
      result is never empty, because no default is blank. */
  function GetSettingText(s: Settings, key: TextKey): (r: string)
    ensures Trimmed(r) && r != []
    ensures !AllSpace(StoredText(s, key).GetOr("")) ==> r == Trim(StoredText(s, key).GetOr(""))
    ensures AllSpace(StoredText(s, key).GetOr("")) ==> r == DefaultText(key)
  {
    var raw := Trim(StoredText(s, key).GetOr(""));
    TrimEmptyIffBlank(StoredText(s, key).GetOr(""));
    DefaultTextTrimmed(key);
    if raw != [] then raw else DefaultText(key)
  }

  /** The prompt and reminder input handlers store the field's text as
      typed; nothing else changes. */
  function OnTextInput(s: Settings, key: TextKey, value: string): (r: Settings)
    ensures StoredText(r, key) == Some(value)
    ensures forall k :: k != key ==> StoredText(r, k) == StoredText(s, k)
    ensures r.autoInterval == s.autoInterval && r.imageMode == s.imageMode && r.hideInline == s.hideInline
  {
    match key
    case StartPrompt => s.(startPrompt := Some(value))
    case EndPrompt => s.(endPrompt := Some(value))
    case AlarmStartPrompt => s.(alarmStartPrompt := Some(value))
    case AlarmDefaultReminder => s.(alarmDefaultReminder := Some(value))
  }

  /** Clearing a prompt field brings its default back rather than silencing
      the prompt. */
  lemma ClearedPromptFallsBack(s: Settings, key: TextKey)
    ensures GetSettingText(OnTextInput(s, key, ""), key) == DefaultText(key)
  {
  }

  // ---------------------------------------------------------------------
  // Auto-send interval
  // ---------------------------------------------------------------------

  /** The value `onIntervalChange` stores: NaN becomes 30, anything else is
      clamped into [5, 120]. */
  function ClampInterval(input: JsNumber): (r: real)
    ensures MinIntervalSeconds <= r <= MaxIntervalSeconds
    ensures input.NaN? ==> r == DefaultIntervalSeconds
    ensures input.Num? && MinIntervalSeconds <= input.value <= MaxIntervalSeconds ==> r == input.value
    ensures input.Num? && input.value < MinIntervalSeconds ==> r == MinIntervalSeconds
    ensures input.Num? && input.value > MaxIntervalSeconds ==> r == MaxIntervalSeconds
  {
    match input
    case NaN => DefaultIntervalSeconds
    case Num(v) =>
      var upper := if v < MaxIntervalSeconds then v else MaxIntervalSeconds;
      if upper > MinIntervalSeconds then upper else MinIntervalSeconds
  }

  /** Clamping twice is clamping once, and clamping keeps the order of
      inputs. */
  lemma ClampIntervalIdempotentMonotone(input: JsNumber, a: real, b: real)
    ensures ClampInterval(Num(ClampInterval(input))) == ClampInterval(input)
    ensures a <= b ==> ClampInterval(Num(a)) <= ClampInterval(Num(b))
  {
  }

  /** `onIntervalChange`: only the stored interval changes. */
  function OnIntervalChange(s: Settings, input: JsNumber): (r: Settings)
    ensures r.autoInterval.Num? && MinIntervalSeconds <= r.autoInterval.value <= MaxIntervalSeconds
    ensures r.(autoInterval := s.autoInterval) == s
  {
    s.(autoInterval := Num(ClampInterval(input)))
  }

  /** `Number(auto_interval) || 30`: the seconds `startAuto` uses, 30 when
      the stored value is NaN or 0. */
  function EffectiveAutoSeconds(stored: JsNumber): (r: real)
    ensures r != 0.0
    ensures stored.Num? && stored.value != 0.0 ==> r == stored.value
    ensures stored.NaN? || stored == Num(0.0) ==> r == DefaultIntervalSeconds
  {
    match stored
    case NaN => DefaultIntervalSeconds
    case Num(v) => if v == 0.0 then DefaultIntervalSeconds else v
  }

  /** An interval stored through the slider is used as stored, so the timer
      period is always between 5 and 120 seconds. */
  lemma SliderIntervalIsUsed(s: Settings, input: JsNumber)
    ensures EffectiveAutoSeconds(OnIntervalChange(s, input).autoInterval) == ClampInterval(input)
    ensures MinIntervalSeconds <= EffectiveAutoSeconds(OnIntervalChange(s, input).autoInterval) <= MaxIntervalSeconds
  {
  }

  // ---------------------------------------------------------------------
  // Image mode
  // ---------------------------------------------------------------------

  /** `String(image_mode || 'captions') === 'inline'`; every other stored
      value, and a missing or empty one, behaves as captions mode. */
  predicate IsInlineMode(s: Settings) {
    s.imageMode == Some("inline")
  }

  /** `onImageModeChange`: the selector's value is stored as `inline` or
      `captions`, nothing else. */
  function NormaliseImageMode(selected: string): (r: string)
    ensures r == "inline" || r == "captions"
    ensures r == "inline" <==> selected == "inline"
  {
    var value := if selected == "" then "captions" else selected;
    if value == "inline" then "inline" else "captions"
  }

  function OnImageModeChange(s: Settings, selected: string): (r: Settings)
    ensures IsInlineMode(r) <==> selected == "inline"
    ensures r.imageMode == Some("inline") || r.imageMode == Some("captions")
    ensures r.(imageMode := s.imageMode) == s
  {
    s.(imageMode := Some(NormaliseImageMode(selected)))
  }

  /** Normalising a normalised mode changes nothing. */
  lemma NormaliseImageModeIdempotent(selected: string)
    ensures NormaliseImageMode(NormaliseImageMode(selected)) == NormaliseImageMode(selected)
  {
  }
}

=== FILE: frame.dfy ===
/** The JPEG data URL a captured frame travels as: the canvas hands out
    `data:image/jpeg;base64,<payload>`, the capture keeps only the payload
    (`split(",")[1]`), and the inline path rebuilds the URL around it. */
module Frame {
  import opened Wrappers

  const JpegPrefix: string := "data:image/jpeg;base64,"

  /** The data URL the inline path builds around a payload. */
  function DataUrl(payload: string): (u: string)
    ensures |u| == |JpegPrefix| + |payload|
    ensures u[..|JpegPrefix|] == JpegPrefix && u[|JpegPrefix|..] == payload
  {
    JpegPrefix + payload
  }

  /** Everything after the first comma, or nothing without one. */
  function AfterFirstComma(u: string): (r: Option<string>)
    ensures r.Some? ==> |r.value| < |u| && r.value == u[|u| - |r.value|..] && u[|u| - |r.value| - 1] == ','
    ensures r.None? <==> ',' !in u
  {
    if u == [] then None
    else if u[0] == ',' then Some(u[1..])
    else
      var r := AfterFirstComma(u[1..]);
      assert r.Some? ==> u[1..][|u[1..]| - |r.value|..] == u[|u| - |r.value|..];
      r
  }

  /** Everything before the first comma. */
  function UpToComma(t: string): (r: string)
    ensures |r| <= |t| && r == t[..|r|] && ',' !in r
    ensures |r| < |t| ==> t[|r|] == ','
  {
    if t == [] || t[0] == ',' then []
    else
      var rest := UpToComma(t[1..]);
      assert t[..1 + |rest|] == [t[0]] + t[1..][..|rest|];
      [t[0]] + rest
  }

  /** `dataUrl.split(",")[1]`: the text between the first and the second
      comma. The canvas always yields a comma, so the `undefined` of a URL
      without one is not modelled and reads as empty here. */
  function Payload(u: string): (r: string)
    ensures ',' !in r
    ensures ',' !in u ==> r == []
  {
    match AfterFirstComma(u)
    case None => []
    case Some(t) => UpToComma(t)
  }

  lemma {:induction false} AfterCommaOfJoin(a: string, b: string)
    requires ',' !in a
    ensures AfterFirstComma(a + [','] + b) == Some(b)
  {
    if a == [] {
      assert a + [','] + b == [','] + b;
      assert ([','] + b)[1..] == b;
    } else {
      assert (a + [','] + b)[1..] == a[1..] + [','] + b;
      AfterCommaOfJoin(a[1..], b);
    }
  }

  lemma {:induction false} UpToCommaOfCommaFree(b: string)
    requires ',' !in b
    ensures UpToComma(b) == b
  {
    if b != [] {
      UpToCommaOfCommaFree(b[1..]);
    }
  }

  /** The text before the first comma of `b + "," + c` is `b`. */
  lemma {:induction false} UpToCommaOfJoin(b: string, c: string)
    requires ',' !in b
    ensures UpToComma(b + [','] + c) == b
  {
    if b != [] {
      assert (b + [','] + c)[1..] == b[1..] + [','] + c;
      UpToCommaOfJoin(b[1..], c);
    }
  }

  /** `split(",")[1]` is the field between the first and the second comma,
      or everything after the first comma when there is no second. */
  lemma PayloadOfSplit(a: string, b: string, c: string)
    requires ',' !in a && ',' !in b
    ensures Payload(a + [','] + b) == b
    ensures Payload(a + [','] + b + [','] + c) == b
  {
    AfterCommaOfJoin(a, b);
    UpToCommaOfCommaFree(b);
    assert a + [','] + b + [','] + c == a + [','] + (b + [','] + c);
    AfterCommaOfJoin(a, b + [','] + c);
    UpToCommaOfJoin(b, c);
  }

  /** Base64 has no comma, so the payload taken out of a JPEG data URL is
      exactly the one put in, and rebuilding the URL from what was taken
      out gives the canvas's URL back. */
  lemma DataUrlRoundTrip(payload: string)
    requires ',' !in payload
    ensures Payload(DataUrl(payload)) == payload
    ensures DataUrl(Payload(DataUrl(payload))) == DataUrl(payload)
  {
    var head := "data:image/jpeg;base64";
    assert JpegPrefix == head + [','];
    assert ',' !in head by {
      forall i | 0 <= i < |head| ensures head[i] != ',' {
      }
    }
    AfterCommaOfJoin(head, payload);
    UpToCommaOfCommaFree(payload);
  }
}

=== FILE: session.dfy ===
/** The call-session state machine: the camera stream, the auto-send timer,
    the wake-up alarm and the two one-shot flags, as pure transitions over
    one state record. Host calls, timers and media requests a transition
    makes are returned, in order, as a list of effects. */
module Session {
  import opened Wrappers
  import opened Text
  import opened Clock
  import opened Config
  import opened Frame

  /** The add-on's process-wide variables. */
  datatype State = State(
    streamPresent: bool,            // videoCallsStream is held
    previewVisible: bool,           // the preview panel is shown
    autoRunning: bool,              // videoCallsAutoTimer is set
    skipNextAttach: bool,           // videoCallsSkipNextAttach
    startOverride: Option<string>,  // nextStartPromptOverride
    alarmTarget: Option<int>,       // alarmTarget, an instant (see Clock)
    alarmTimeoutArmed: bool,        // alarmTimeoutId is set
    alarmTickArmed: bool,           // alarmIntervalId is set
    reminder: string)               // alarmReminderText

  const Initial: State := State(false, false, false, false, None, None, false, false, "")

  /** A held stream is always on show, and an armed alarm timer always has
      a target. */
  predicate Valid(s: State) {
    && (s.streamPresent ==> s.previewVisible)
    && (s.alarmTimeoutArmed || s.alarmTickArmed ==> s.alarmTarget.Some?)
  }

  /** What a transition asks of the browser and the host, in order. */
  datatype Effect =
    | AcquireCamera                  // getUserMedia({ video: true, audio: false })
    | ReleaseCamera                  // stop every track of the stream
    | CameraError                    // "Could not access webcam" notice
    | SendUserMessage(text: string)  // sendMessageAsUser(text, "")
    | StartAutoTimer(periodMs: real) // setInterval(autoSendTick, periodMs)
    | StopAutoTimer                  // clearInterval
    | ArmAlarmTimeout(delayMs: int)  // setTimeout(onAlarmFire, delayMs)
    | CancelAlarmTimeout
    | ArmAlarmTick                   // one-second countdown refresh
    | CancelAlarmTick
    | AlarmNotice                    // "Wakeup Call: time is up!"
    | RequestGeneration              // Generate('normal') once the host is idle
    | SaveImageFile(base64: string)  // saveBase64AsFile
    | ShowMedia(messageId: int)      // appendMediaToMessage
    | SaveChat                       // saveChatConditional
    | EmitFileEmbedded(messageId: int)

  datatype Step = Step(state: State, effects: seq<Effect>)

  /** No effect is asked for twice. */
  predicate Distinct(e: seq<Effect>) {
    forall i, j :: 0 <= i < j < |e| ==> e[i] != e[j]
  }

  /** Two effect lists without a common effect join into one without a
      repetition. */
  lemma DistinctJoin(a: seq<Effect>, b: seq<Effect>)
    requires Distinct(a) && Distinct(b)
    requires forall x :: x in a ==> x !in b
    ensures Distinct(a + b)
  {
    forall i, j | 0 <= i < j < |a + b| ensures (a + b)[i] != (a + b)[j] {
      if j >= |a| && i < |a| {
        assert (a + b)[i] in a && (a + b)[j] in b;
      }
    }
  }

  /** The result of asking the browser for the camera. */
  datatype CameraOutcome = Granted | Denied

  lemma StateInitiallyValid()
    ensures Valid(Initial)
  {
  }

  // ---------------------------------------------------------------------
  // Frame capture
  // ---------------------------------------------------------------------

  /** `captureWebcamFrame`: a frame needs a held stream. `canvas` is the
      JPEG data URL the video element would be drawn into, or nothing while
      its dimensions are unknown; the frame is that URL's base64 payload. */
  function CaptureFrame(s: State, canvas: Option<string>): (f: Option<string>)
    ensures f.Some? <==> s.streamPresent && canvas.Some?
    ensures f.Some? ==> f.value == Payload(canvas.value)
    ensures forall b :: ',' !in b && canvas == Some(DataUrl(b)) && s.streamPresent ==> f == Some(b)
  {
    if s.streamPresent && canvas.Some? then
      assert forall b :: ',' !in b && canvas == Some(DataUrl(b)) ==> Payload(canvas.value) == b by {
        forall b | ',' !in b && canvas == Some(DataUrl(b)) ensures Payload(canvas.value) == b {
          DataUrlRoundTrip(b);
        }
      }
      Some(Payload(canvas.value))
    else None
  }

  // ---------------------------------------------------------------------
  // Call session
  // ---------------------------------------------------------------------

  /** The call ends up running: the media API exists and either a stream is
      already held or the camera is granted. */
  predicate CallStarts(s: State, mediaApi: bool, camera: CameraOutcome) {
    mediaApi && (s.streamPresent || camera == Granted)
  }

  /** The start announcement: a pending override (trimmed) wins over the
      configured start prompt. */
  function Announcement(s: State, cfg: Settings): string {
    match s.startOverride
    case Some(text) => Trim(text)
    case None => GetSettingText(cfg, StartPrompt)
  }

  /** `startVideoCall`. */
  function StartVideoCall(s: State, cfg: Settings, mediaApi: bool, camera: CameraOutcome): (r: Step)
    ensures Valid(s) ==> Valid(r.state)
    ensures (AcquireCamera in r.effects) <==> mediaApi && !s.streamPresent
    ensures (CameraError in r.effects) <==> mediaApi && !s.streamPresent && camera == Denied
    ensures !CallStarts(s, mediaApi, camera) ==> r.state == s
    ensures CallStarts(s, mediaApi, camera) ==>
              && r.state.streamPresent && r.state.previewVisible
              && r.state.startOverride == None
              && (r.state.skipNextAttach <==> s.skipNextAttach || Announcement(s, cfg) != [])
    ensures forall t :: SendUserMessage(t) in r.effects <==>
              CallStarts(s, mediaApi, camera) && t == Announcement(s, cfg) && t != []
    ensures forall e :: e in r.effects ==> e == AcquireCamera || e == CameraError || e.SendUserMessage?
    ensures Distinct(r.effects)
    ensures AcquireCamera in r.effects ==> r.effects[0] == AcquireCamera
    ensures r.state.(streamPresent := s.streamPresent, previewVisible := s.previewVisible,
                     skipNextAttach := s.skipNextAttach, startOverride := s.startOverride) == s
  {
    if !mediaApi then Step(s, [])
    else if !s.streamPresent && camera == Denied then Step(s, [AcquireCamera, CameraError])
    else
      var text := Announcement(s, cfg);
      Step(s.(streamPresent := true, previewVisible := true, startOverride := None,
              skipNextAttach := s.skipNextAttach || text != []),
           StartEffects(!s.streamPresent, text))
  }

  /** What a successful `startVideoCall` asks for: the camera when no
      stream is held, then the announcement unless it is empty. */
  function StartEffects(acquire: bool, text: string): (e: seq<Effect>)
    ensures (AcquireCamera in e) <==> acquire
    ensures CameraError !in e
    ensures forall t :: SendUserMessage(t) in e <==> t == text && t != []
    ensures forall x :: x in e ==> x == AcquireCamera || x.SendUserMessage?
    ensures Distinct(e)
    ensures acquire ==> e[0] == AcquireCamera
  {
    if acquire && text != [] then [AcquireCamera, SendUserMessage(text)]
    else if acquire then [AcquireCamera]
    else if text != [] then [SendUserMessage(text)]
    else []
  }

  /** `stopVideoCall`: the stream is released and cleared, the auto timer
      stopped, the preview hidden, and the end prompt announced with the
      next attachment suppressed. */
  function StopVideoCall(s: State, cfg: Settings): (r: Step)
    ensures Valid(s) ==> Valid(r.state)
    ensures !r.state.streamPresent && !r.state.previewVisible && !r.state.autoRunning
    ensures (ReleaseCamera in r.effects) <==> s.streamPresent
    ensures (StopAutoTimer in r.effects) <==> s.autoRunning
    ensures r.state.skipNextAttach
    ensures |r.effects| > 0 && r.effects[|r.effects| - 1] == SendUserMessage(GetSettingText(cfg, EndPrompt))
    ensures forall t :: SendUserMessage(t) in r.effects ==> t == GetSettingText(cfg, EndPrompt)
    ensures forall e :: e in r.effects ==> e == ReleaseCamera || e == StopAutoTimer || e.SendUserMessage?
    ensures Distinct(r.effects)
    ensures s.streamPresent ==> r.effects[0] == ReleaseCamera
    ensures r.state.(streamPresent := s.streamPresent, previewVisible := s.previewVisible,
                     autoRunning := s.autoRunning, skipNextAttach := s.skipNextAttach) == s
  {
    Step(s.(streamPresent := false, previewVisible := false, autoRunning := false, skipNextAttach := true),
         StopEffects(s.streamPresent, s.autoRunning, GetSettingText(cfg, EndPrompt)))
  }

  /** What `stopVideoCall` asks for: the tracks stopped when a stream is
      held, the auto timer cleared when it runs, then the end prompt. */
  function StopEffects(streamPresent: bool, autoRunning: bool, endText: string): (e: seq<Effect>)
    ensures (ReleaseCamera in e) <==> streamPresent
    ensures (StopAutoTimer in e) <==> autoRunning
    ensures |e| > 0 && e[|e| - 1] == SendUserMessage(endText)
    ensures forall t :: SendUserMessage(t) in e ==> t == endText
    ensures forall x :: x in e ==> x == ReleaseCamera || x == StopAutoTimer || x.SendUserMessage?
    ensures Distinct(e)
    ensures streamPresent ==> e[0] == ReleaseCamera
  {
    if streamPresent && autoRunning then [ReleaseCamera, StopAutoTimer, SendUserMessage(endText)]
    else if streamPresent then [ReleaseCamera, SendUserMessage(endText)]
    else if autoRunning then [StopAutoTimer, SendUserMessage(endText)]
    else [SendUserMessage(endText)]
  }

  /** The call button: it stops a held call and starts one otherwise. */
  function ToggleCall(s: State, cfg: Settings, mediaApi: bool, camera: CameraOutcome): (r: Step)
    ensures Valid(s) ==> Valid(r.state)
    ensures s.streamPresent ==> !r.state.streamPresent && !r.state.autoRunning && ReleaseCamera in r.effects
    ensures !s.streamPresent ==> (r.state.streamPresent <==> CallStarts(s, mediaApi, camera))
    ensures !s.streamPresent ==> ReleaseCamera !in r.effects
    ensures s.streamPresent ==>
              && r.state.skipNextAttach && !r.state.previewVisible
              && r.effects[|r.effects| - 1] == SendUserMessage(GetSettingText(cfg, EndPrompt))
              && (forall t :: SendUserMessage(t) in r.effects ==> t == GetSettingText(cfg, EndPrompt))
              && (StopAutoTimer in r.effects <==> s.autoRunning)
              && r.effects[0] == ReleaseCamera
    ensures !s.streamPresent ==>
              && (forall t :: SendUserMessage(t) in r.effects <==>
                    CallStarts(s, mediaApi, camera) && t == Announcement(s, cfg) && t != [])
              && (r.state.skipNextAttach <==> s.skipNextAttach || (CallStarts(s, mediaApi, camera) && Announcement(s, cfg) != []))
              && (AcquireCamera in r.effects <==> mediaApi)
              && (CameraError in r.effects <==> mediaApi && camera == Denied)
              && StopAutoTimer !in r.effects
    ensures s.streamPresent ==>
              && r.state.(streamPresent := s.streamPresent, previewVisible := s.previewVisible,
                          autoRunning := s.autoRunning, skipNextAttach := s.skipNextAttach) == s
              && forall e :: e in r.effects ==> e == ReleaseCamera || e == StopAutoTimer || e.SendUserMessage?
    ensures !s.streamPresent ==>
              && r.state.(streamPresent := s.streamPresent, previewVisible := s.previewVisible,
                          skipNextAttach := s.skipNextAttach, startOverride := s.startOverride) == s
              && (CallStarts(s, mediaApi, camera) ==> r.state.startOverride == None && r.state.previewVisible)
              && (!CallStarts(s, mediaApi, camera) ==> r.state == s)
              && (forall e :: e in r.effects ==> e == AcquireCamera || e == CameraError || e.SendUserMessage?)
              && (AcquireCamera in r.effects ==> r.effects[0] == AcquireCamera)
    ensures Distinct(r.effects)
  {
    if s.streamPresent then StopVideoCall(s, cfg) else StartVideoCall(s, cfg, mediaApi, camera)
  }

  /** Pressing the button twice from an idle session, with the camera
      granted, opens and closes one call: the camera is acquired once and
      released once, the start prompt is sent and then the end prompt, and
      nothing is left running. */
  lemma ToggleTwiceOpensAndClosesCall(s: State, cfg: Settings)
    requires !s.streamPresent && !s.autoRunning && s.startOverride == None
    ensures var first := ToggleCall(s, cfg, true, Granted);
            var second := ToggleCall(first.state, cfg, true, Granted);
            && first.effects == [AcquireCamera, SendUserMessage(GetSettingText(cfg, StartPrompt))]
            && second.effects == [ReleaseCamera, SendUserMessage(GetSettingText(cfg, EndPrompt))]
            && !second.state.streamPresent && !second.state.autoRunning && second.state.skipNextAttach
  {
  }

  // ---------------------------------------------------------------------
  // Auto-send loop
  // ---------------------------------------------------------------------

  /** The timer period `startAuto` arms, in milliseconds. */
  function AutoPeriodMs(cfg: Settings): real {
    EffectiveAutoSeconds(cfg.autoInterval) * 1000.0
  }

  /** `startAuto`: arms the timer unless one is already running. */
  function StartAuto(s: State, cfg: Settings): (r: Step)
    ensures Valid(s) ==> Valid(r.state)
    ensures r.state.autoRunning
    ensures r.state.(autoRunning := s.autoRunning) == s
    ensures s.autoRunning ==> r.effects == []
    ensures !s.autoRunning ==> r.effects == [StartAutoTimer(AutoPeriodMs(cfg))]
  {
    if s.autoRunning then Step(s, [])
    else Step(s.(autoRunning := true), [StartAutoTimer(AutoPeriodMs(cfg))])
  }

  /** With an interval stored by the slider the period is 5 to 120 seconds,
      and an unset or zero interval gives 30 seconds. */
  lemma AutoPeriodBounds(cfg: Settings, input: JsNumber)
    ensures 5000.0 <= AutoPeriodMs(OnIntervalChange(cfg, input)) <= 120000.0
    ensures cfg.autoInterval.NaN? || cfg.autoInterval == Num(0.0) ==> AutoPeriodMs(cfg) == 30000.0
  {
    SliderIntervalIsUsed(cfg, input);
  }

  /** `stopAuto`: clears the timer if there is one. */
  function StopAuto(s: State): (r: Step)
    ensures Valid(s) ==> Valid(r.state)
    ensures !r.state.autoRunning
    ensures r.state.(autoRunning := s.autoRunning) == s
    ensures r.effects == (if s.autoRunning then [StopAutoTimer] else [])
  {
    if s.autoRunning then Step(s.(autoRunning := false), [StopAutoTimer]) else Step(s, [])
  }

  /** `onAutoClick`: toggles the auto-send loop. */
  function AutoClick(s: State, cfg: Settings): (r: Step)
    ensures Valid(s) ==> Valid(r.state)
    ensures r.state.autoRunning == !s.autoRunning
    ensures r.state.(autoRunning := s.autoRunning) == s
    ensures r.effects == (if s.autoRunning then [StopAutoTimer] else [StartAutoTimer(AutoPeriodMs(cfg))])
  {
    if s.autoRunning then StopAuto(s) else StartAuto(s, cfg)
  }

  /** `autoSendTick`: sends an empty user turn only when a frame is
      available; in inline mode it also asks for a reply. */
  function AutoSendTick(s: State, cfg: Settings, canvas: Option<string>): (r: Step)
    ensures r.state == s
    ensures (SendUserMessage([]) in r.effects) <==> CaptureFrame(s, canvas).Some?
    ensures forall t :: SendUserMessage(t) in r.effects ==> t == []
    ensures (RequestGeneration in r.effects) <==> CaptureFrame(s, canvas).Some? && IsInlineMode(cfg)
    ensures forall e :: e in r.effects ==> e == SendUserMessage([]) || e == RequestGeneration
    ensures Distinct(r.effects)
    ensures r.effects != [] ==> r.effects[0] == SendUserMessage([])
    ensures RequestGeneration in r.effects ==> r.effects[|r.effects| - 1] == RequestGeneration
  {
    match CaptureFrame(s, canvas)
    case None => Step(s, [])
    case Some(_) =>
      Step(s, [SendUserMessage([])] + (if IsInlineMode(cfg) then [RequestGeneration] else []))
  }

  // ---------------------------------------------------------------------
  // Alarm
  // ---------------------------------------------------------------------

  /** The cancellations of the alarm timers that are set. */
  function CancelTimers(s: State): (c: seq<Effect>)
    ensures (CancelAlarmTimeout in c) <==> s.alarmTimeoutArmed
    ensures (CancelAlarmTick in c) <==> s.alarmTickArmed
    ensures forall e :: e in c ==> e == CancelAlarmTimeout || e == CancelAlarmTick
    ensures Distinct(c)
  {
    if s.alarmTimeoutArmed && s.alarmTickArmed then [CancelAlarmTimeout, CancelAlarmTick]
    else if s.alarmTimeoutArmed then [CancelAlarmTimeout]
    else if s.alarmTickArmed then [CancelAlarmTick]
    else []
  }

  /** `clearAlarm`: both timers cancelled, target and reminder cleared. */
  function ClearAlarm(s: State): (r: Step)
    ensures Valid(s) ==> Valid(r.state)
    ensures r.state.alarmTarget == None && !r.state.alarmTimeoutArmed && !r.state.alarmTickArmed
    ensures r.state.reminder == []
    ensures (CancelAlarmTimeout in r.effects) <==> s.alarmTimeoutArmed
    ensures (CancelAlarmTick in r.effects) <==> s.alarmTickArmed
    ensures forall e :: e in r.effects ==> e == CancelAlarmTimeout || e == CancelAlarmTick
    ensures Distinct(r.effects)
    ensures r.state.(alarmTarget := s.alarmTarget, alarmTimeoutArmed := s.alarmTimeoutArmed,
                     alarmTickArmed := s.alarmTickArmed, reminder := s.reminder) == s
  {
    Step(s.(alarmTarget := None, alarmTimeoutArmed := false, alarmTickArmed := false, reminder := []), CancelTimers(s))
  }

  /** Clearing a cleared alarm does nothing. */
  lemma ClearAlarmIdempotent(s: State)
    ensures ClearAlarm(ClearAlarm(s).state) == Step(ClearAlarm(s).state, [])
  {
  }

  /** Confirming the alarm dialog: the reminder is stored, then
      `scheduleAlarm` replaces any pending alarm with one at the next
      occurrence of the picked time and arms the countdown refresh. */
  function ScheduleAlarm(s: State, hour12: int, minute: int, ampm: string, reminder: string, now: int): (r: Step)
    requires 0 <= now < DayMs
    ensures Valid(s) ==> Valid(r.state)
    ensures r.state.alarmTarget == Some(AlarmTarget(To24h(hour12, IsPmText(ampm)), minute, now))
    ensures r.state.alarmTimeoutArmed && r.state.alarmTickArmed && r.state.reminder == reminder
    ensures (CancelAlarmTimeout in r.effects) <==> s.alarmTimeoutArmed
    ensures (CancelAlarmTick in r.effects) <==> s.alarmTickArmed
    ensures |r.effects| >= 2 && r.effects[|r.effects| - 1] == ArmAlarmTick
    ensures r.effects[|r.effects| - 2] == ArmAlarmTimeout(r.state.alarmTarget.value - now)
    ensures forall i :: 0 <= i < |r.effects| - 2 ==> r.effects[i] == CancelAlarmTimeout || r.effects[i] == CancelAlarmTick
    ensures Distinct(r.effects)
    ensures 1 <= hour12 <= 12 && 0 <= minute < 60 ==> 0 < r.state.alarmTarget.value - now <= DayMs
    ensures r.state.(alarmTarget := s.alarmTarget, alarmTimeoutArmed := s.alarmTimeoutArmed,
                     alarmTickArmed := s.alarmTickArmed, reminder := s.reminder) == s
  {
    var cancel := CancelTimers(s);
    var target := AlarmTarget(To24h(hour12, IsPmText(ampm)), minute, now);
    PickedTimeInDay(hour12, minute, ampm);
    DistinctJoin(cancel, [ArmAlarmTimeout(target - now), ArmAlarmTick]);
    Step(s.(reminder := reminder, alarmTarget := Some(target), alarmTimeoutArmed := true, alarmTickArmed := true),
         cancel + [ArmAlarmTimeout(target - now), ArmAlarmTick])
  }

  /** The start override `onAlarmFire` is evidently meant to build: the
      alarm start template with every placeholder replaced by the reminder
      verbatim, or nothing when the template is empty (which the non-blank
      default rules out). The alarm transitions use this one; the as-written
      override below differs only for reminders containing `$`. */
  function AlarmOverride(cfg: Settings, reminder: string): (r: Option<string>)
    ensures r.Some?
    ensures NoMatch(GetSettingText(cfg, AlarmStartPrompt), ReminderPlaceholder) ==>
              r == Some(GetSettingText(cfg, AlarmStartPrompt))
  {
    var template := GetSettingText(cfg, AlarmStartPrompt);
    assert NoMatch(template, ReminderPlaceholder) ==> ReplaceAll(template, ReminderPlaceholder, reminder) == template by {
      if NoMatch(template, ReminderPlaceholder) {
        ReplaceAllWithoutMatch(template, ReminderPlaceholder, reminder);
      }
    }
    if template != [] then Some(ReplaceAll(template, ReminderPlaceholder, reminder)) else None
  }

  /** The override as `onAlarmFire` builds it: the reminder is passed to
      `String.prototype.replaceAll` as a replacement string, so `$$`, `$&`,
      `` $` `` and `$'` in it are expanded. */
  function AlarmOverrideAsWritten(cfg: Settings, reminder: string): (r: Option<string>)
    ensures r.Some?
    ensures NoMatch(GetSettingText(cfg, AlarmStartPrompt), ReminderPlaceholder) ==>
              r == Some(GetSettingText(cfg, AlarmStartPrompt))
  {
    var template := GetSettingText(cfg, AlarmStartPrompt);
    if template != [] then Some(ReplaceAllJs(template, ReminderPlaceholder, reminder)) else None
  }

  /** A reminder without `$` is inserted the same way by both. */
  lemma AlarmOverrideAsWrittenAgrees(cfg: Settings, reminder: string)
    requires '$' !in reminder
    ensures AlarmOverrideAsWritten(cfg, reminder) == AlarmOverride(cfg, reminder)
  {
    var template := GetSettingText(cfg, AlarmStartPrompt);
    assert AlarmOverride(cfg, reminder) == Some(ReplaceAll(template, ReminderPlaceholder, reminder));
    assert AlarmOverrideAsWritten(cfg, reminder) == Some(ReplaceAllJs(template, ReminderPlaceholder, reminder));
    ReplaceAllJsAgreesWithoutDollar(template, ReminderPlaceholder, reminder);
  }

  /** With the template set to the bare placeholder, the reminder `$$` comes
      out as `$` as written, but verbatim in the corrected override. */
  lemma AlarmOverrideAsWrittenCollapsesDollars(cfg: Settings)
    requires GetSettingText(cfg, AlarmStartPrompt) == ReminderPlaceholder
    ensures AlarmOverrideAsWritten(cfg, "$$") == Some("$")
    ensures AlarmOverride(cfg, "$$") == Some("$$")
  {
    ReplaceAllJsCollapsesDollars(ReminderPlaceholder);
  }

  /** A template with one placeholder, and no other occurrence of it, has
      the reminder inserted verbatim; the default template is of this form. */
  lemma AlarmOverrideInsertsReminder(cfg: Settings, head: string, tail: string, reminder: string)
    requires GetSettingText(cfg, AlarmStartPrompt) == head + ReminderPlaceholder + tail
    requires NoMatchBefore(head + ReminderPlaceholder + tail, ReminderPlaceholder, |head|)
    requires NoMatch(tail, ReminderPlaceholder)
    ensures AlarmOverride(cfg, reminder) == Some(head + reminder + tail)
  {
    ReplaceSingleOccurrence(head, tail, ReminderPlaceholder, reminder);
  }

  /** What the call started by the alarm announces. */
  function AlarmAnnouncement(cfg: Settings, reminder: string): string {
    Trim(AlarmOverride(cfg, reminder).value)
  }

  /** For a reminder without `$` the announcement is exactly the text the
      as-written override announces. */
  lemma AlarmAnnouncementAsWritten(cfg: Settings, reminder: string)
    requires '$' !in reminder
    ensures AlarmOverrideAsWritten(cfg, reminder).Some?
    ensures AlarmAnnouncement(cfg, reminder) == Trim(AlarmOverrideAsWritten(cfg, reminder).value)
  {
    AlarmOverrideAsWrittenAgrees(cfg, reminder);
  }

  /** The first half of `onAlarmFire`: when no call is held the alarm
      override is armed and a call started; a held call is left alone. */
  function AlarmCall(s: State, cfg: Settings, mediaApi: bool, camera: CameraOutcome): (r: Step)
    ensures Valid(s) ==> Valid(r.state)
    ensures r.state.(streamPresent := s.streamPresent, previewVisible := s.previewVisible,
                     skipNextAttach := s.skipNextAttach, startOverride := s.startOverride) == s
    ensures (AcquireCamera in r.effects) <==> mediaApi && !s.streamPresent
    ensures mediaApi && !s.streamPresent ==> r.effects[0] == AcquireCamera
    ensures s.streamPresent ==> r == Step(s, [])
    ensures !s.streamPresent && CallStarts(s, mediaApi, camera) ==>
              && r.state.startOverride == None
              && r.state.streamPresent
              && (r.state.skipNextAttach <==> s.skipNextAttach || AlarmAnnouncement(cfg, s.reminder) != [])
              && forall t :: SendUserMessage(t) in r.effects <==> t == AlarmAnnouncement(cfg, s.reminder) && t != []
    ensures !s.streamPresent && !CallStarts(s, mediaApi, camera) ==>
              && r.state == s.(startOverride := AlarmOverride(cfg, s.reminder))
              && forall t :: SendUserMessage(t) !in r.effects
  {
    if s.streamPresent then Step(s, [])
    else
      var armed := s.(startOverride := AlarmOverride(cfg, s.reminder));
      assert Announcement(armed, cfg) == AlarmAnnouncement(cfg, s.reminder);
      StartVideoCall(armed, cfg, mediaApi, camera)
  }

  /** The alarm call asks only for the camera, its error and the non-empty
      alarm announcement, each at most once, and reports the error exactly
      when the camera is refused. */
  lemma AlarmCallEffects(s: State, cfg: Settings, mediaApi: bool, camera: CameraOutcome)
    ensures var r := AlarmCall(s, cfg, mediaApi, camera);
            && ((CameraError in r.effects) <==> mediaApi && !s.streamPresent && camera == Denied)
            && (forall e :: e in r.effects ==> e == AcquireCamera || e == CameraError || e.SendUserMessage?)
            && (forall t :: SendUserMessage(t) in r.effects ==> t == AlarmAnnouncement(cfg, s.reminder) && t != [])
            && Distinct(r.effects)
  {
    if !s.streamPresent {
      var armed := s.(startOverride := AlarmOverride(cfg, s.reminder));
      assert Announcement(armed, cfg) == AlarmAnnouncement(cfg, s.reminder);
      assert AlarmCall(s, cfg, mediaApi, camera) == StartVideoCall(armed, cfg, mediaApi, camera);
    }
  }

  /** `onAlarmFire`: the one-shot timer is spent, the alarm notice shown and
      a call started if none is held; then the auto-send loop is started and
      one tick sent straight away. */
  function AlarmFire(s: State, cfg: Settings, mediaApi: bool, camera: CameraOutcome, canvas: Option<string>): (r: Step)
    ensures Valid(s) ==> Valid(r.state)
    ensures !r.state.alarmTimeoutArmed && r.state.autoRunning
    ensures r.state.alarmTickArmed == s.alarmTickArmed && r.state.alarmTarget == s.alarmTarget
    ensures r.state.reminder == s.reminder
    ensures |r.effects| > 0 && r.effects[0] == AlarmNotice
    ensures (AcquireCamera in r.effects) <==> mediaApi && !s.streamPresent
    ensures r.state.skipNextAttach <==>
              s.skipNextAttach
              || (!s.streamPresent && CallStarts(s, mediaApi, camera) && AlarmAnnouncement(cfg, s.reminder) != [])
    ensures r.state.previewVisible == (s.previewVisible || (!s.streamPresent && CallStarts(s, mediaApi, camera)))
    ensures s.streamPresent ==>
              && r.state.startOverride == s.startOverride
              && r.state.streamPresent
              && forall t :: SendUserMessage(t) in r.effects <==> t == [] && canvas.Some?
    ensures !s.streamPresent && CallStarts(s, mediaApi, camera) ==>
              && r.state.startOverride == None
              && r.state.streamPresent
              && (AlarmAnnouncement(cfg, s.reminder) != [] ==>
                    r.state.skipNextAttach && SendUserMessage(AlarmAnnouncement(cfg, s.reminder)) in r.effects)
              && forall t :: SendUserMessage(t) in r.effects <==>
                   (t == AlarmAnnouncement(cfg, s.reminder) && t != []) || (t == [] && canvas.Some?)
    ensures !s.streamPresent && !CallStarts(s, mediaApi, camera) ==>
              && r.state.startOverride == AlarmOverride(cfg, s.reminder)
              && !r.state.streamPresent
              && forall t :: SendUserMessage(t) !in r.effects
  {
    var spent := s.(alarmTimeoutArmed := false);
    assert CallStarts(spent, mediaApi, camera) == CallStarts(s, mediaApi, camera);
    var call := AlarmCall(spent, cfg, mediaApi, camera);
    var rest := AutoAndTick(call.state, cfg, canvas);
    var effects := [AlarmNotice] + call.effects + rest.effects;
    assert (AcquireCamera in effects) <==> AcquireCamera in call.effects;
    assert forall t :: SendUserMessage(t) in effects <==>
             SendUserMessage(t) in call.effects || SendUserMessage(t) in rest.effects;
    Step(rest.state, effects)
  }

  /** `onAlarmFire` reports a camera error only when it starts a call and
      the camera is refused. */
  lemma AlarmFireCameraError(s: State, cfg: Settings, mediaApi: bool, camera: CameraOutcome, canvas: Option<string>)
    ensures (CameraError in AlarmFire(s, cfg, mediaApi, camera, canvas).effects)
            <==> mediaApi && !s.streamPresent && camera == Denied
  {
    var call := AlarmCall(s.(alarmTimeoutArmed := false), cfg, mediaApi, camera);
    var rest := AutoAndTick(call.state, cfg, canvas);
    assert AlarmFire(s, cfg, mediaApi, camera, canvas).effects == [AlarmNotice] + call.effects + rest.effects;
    assert (CameraError in call.effects) <==> mediaApi && !s.streamPresent && camera == Denied by {
      AlarmCallEffects(s.(alarmTimeoutArmed := false), cfg, mediaApi, camera);
    }
    assert CameraError !in rest.effects;
    InNoticeJoin(CameraError, call.effects, rest.effects);
  }

  /** `onAlarmFire` arms the auto timer, with the configured period, exactly
      when it was not running. */
  lemma AlarmFireStartsAuto(s: State, cfg: Settings, mediaApi: bool, camera: CameraOutcome, canvas: Option<string>)
    ensures (StartAutoTimer(AutoPeriodMs(cfg)) in AlarmFire(s, cfg, mediaApi, camera, canvas).effects)
            <==> !s.autoRunning
  {
    var call := AlarmCall(s.(alarmTimeoutArmed := false), cfg, mediaApi, camera);
    var rest := AutoAndTick(call.state, cfg, canvas);
    assert AlarmFire(s, cfg, mediaApi, camera, canvas).effects == [AlarmNotice] + call.effects + rest.effects;
    assert StartAutoTimer(AutoPeriodMs(cfg)) !in call.effects by {
      AlarmCallEffects(s.(alarmTimeoutArmed := false), cfg, mediaApi, camera);
    }
    InNoticeJoin(StartAutoTimer(AutoPeriodMs(cfg)), call.effects, rest.effects);
  }

  /** `onAlarmFire` asks for a reply only when its tick captured a frame in
      inline mode. */
  lemma AlarmFireRequestsReply(s: State, cfg: Settings, mediaApi: bool, camera: CameraOutcome, canvas: Option<string>)
    ensures var r := AlarmFire(s, cfg, mediaApi, camera, canvas);
            (RequestGeneration in r.effects) <==> r.state.streamPresent && canvas.Some? && IsInlineMode(cfg)
  {
    var call := AlarmCall(s.(alarmTimeoutArmed := false), cfg, mediaApi, camera);
    var rest := AutoAndTick(call.state, cfg, canvas);
    assert AlarmFire(s, cfg, mediaApi, camera, canvas).effects == [AlarmNotice] + call.effects + rest.effects;
    assert RequestGeneration !in call.effects by {
      AlarmCallEffects(s.(alarmTimeoutArmed := false), cfg, mediaApi, camera);
    }
    assert AlarmFire(s, cfg, mediaApi, camera, canvas).state.streamPresent == call.state.streamPresent;
    assert (RequestGeneration in rest.effects) <==> call.state.streamPresent && canvas.Some? && IsInlineMode(cfg);
    InNoticeJoin(RequestGeneration, call.effects, rest.effects);
  }

  /** `onAlarmFire` runs the call before the auto-send loop: nothing the
      call asks for comes after the timer, the empty turn or the reply. */
  lemma AlarmFireOrder(s: State, cfg: Settings, mediaApi: bool, camera: CameraOutcome, canvas: Option<string>)
    ensures CallsBeforeLoop(AlarmFire(s, cfg, mediaApi, camera, canvas).effects)
  {
    var spent := s.(alarmTimeoutArmed := false);
    var call := AlarmCall(spent, cfg, mediaApi, camera);
    var rest := AutoAndTick(call.state, cfg, canvas);
    assert AlarmFire(s, cfg, mediaApi, camera, canvas).effects == [AlarmNotice] + call.effects + rest.effects;
    assert forall e :: e in call.effects ==> CallEffect(e) by {
      AlarmCallEffects(spent, cfg, mediaApi, camera);
    }
    CallBeforeLoop(call.effects, rest.effects);
  }

  /** When `onAlarmFire` starts a call, the camera is requested right after
      the notice. */
  lemma AlarmFireAcquiresFirst(s: State, cfg: Settings, mediaApi: bool, camera: CameraOutcome, canvas: Option<string>)
    requires mediaApi && !s.streamPresent
    ensures AlarmFire(s, cfg, mediaApi, camera, canvas).effects[1] == AcquireCamera
  {
    var call := AlarmCall(s.(alarmTimeoutArmed := false), cfg, mediaApi, camera);
    var rest := AutoAndTick(call.state, cfg, canvas);
    SecondAfterNotice(call.effects, rest.effects);
    assert AlarmFire(s, cfg, mediaApi, camera, canvas).effects == [AlarmNotice] + call.effects + rest.effects;
  }

  /** The effect right after the notice is the call's first. */
  lemma SecondAfterNotice(a: seq<Effect>, b: seq<Effect>)
    requires |a| > 0
    ensures ([AlarmNotice] + a + b)[1] == a[0]
  {
  }

  /** Nothing the call asks for comes after something the loop asks for. */
  predicate CallsBeforeLoop(e: seq<Effect>) {
    forall i, j :: 0 <= i < j < |e| && CallEffect(e[j]) ==> !LoopEffect(e[i])
  }

  /** What the call half of `onAlarmFire` asks for: the camera, its error
      or a non-empty announcement. */
  predicate CallEffect(e: Effect) {
    e == AcquireCamera || e == CameraError || (e.SendUserMessage? && e.text != [])
  }

  /** What the auto-send half asks for: the timer, an empty turn or a reply. */
  predicate LoopEffect(e: Effect) {
    e.StartAutoTimer? || e == SendUserMessage([]) || e == RequestGeneration
  }

  /** After the notice, everything the call asks for comes before anything
      the auto-send loop asks for. */
  lemma CallBeforeLoop(call: seq<Effect>, rest: seq<Effect>)
    requires forall e :: e in call ==> CallEffect(e)
    requires forall e :: e in rest ==> LoopEffect(e)
    ensures CallsBeforeLoop([AlarmNotice] + call + rest)
  {
    var e := [AlarmNotice] + call + rest;
    assert forall k :: |call| < k < |e| ==> e[k] == rest[k - 1 - |call|] && LoopEffect(e[k]);
    forall i, j | 0 <= i < j < |e| && CallEffect(e[j]) ensures !LoopEffect(e[i]) {
      if i > 0 {
        assert e[i] == call[i - 1] && call[i - 1] in call;
        assert CallEffect(e[i]);
      }
    }
  }

  /** Membership in the notice followed by two lists. */
  lemma InNoticeJoin(x: Effect, a: seq<Effect>, b: seq<Effect>)
    ensures x in [AlarmNotice] + a + b <==> x == AlarmNotice || x in a || x in b
  {
  }

  /** `onAlarmFire` asks for nothing outside the notice, the call, the auto
      timer, user turns and a reply, and for nothing twice. */
  lemma AlarmFireEffects(s: State, cfg: Settings, mediaApi: bool, camera: CameraOutcome, canvas: Option<string>)
    ensures var r := AlarmFire(s, cfg, mediaApi, camera, canvas);
            && (forall e :: e in r.effects ==>
                  || e == AlarmNotice || e == AcquireCamera || e == CameraError || e.SendUserMessage?
                  || e == StartAutoTimer(AutoPeriodMs(cfg)) || e == RequestGeneration)
            && Distinct(r.effects)
  {
    var call := AlarmCall(s.(alarmTimeoutArmed := false), cfg, mediaApi, camera);
    var rest := AutoAndTick(call.state, cfg, canvas);
    AlarmCallEffects(s.(alarmTimeoutArmed := false), cfg, mediaApi, camera);
    FireEffectsJoin(call.effects, rest.effects, AutoPeriodMs(cfg));
  }

  /** The effects of the call and of the auto loop have nothing in common:
      the call sends only non-empty text and the tick only empty turns. */
  lemma FireEffectsJoin(call: seq<Effect>, rest: seq<Effect>, period: real)
    requires forall e :: e in call ==> e == AcquireCamera || e == CameraError || e.SendUserMessage?
    requires forall t :: SendUserMessage(t) in call ==> t != []
    requires forall e :: e in rest ==> e == StartAutoTimer(period) || e == SendUserMessage([]) || e == RequestGeneration
    requires Distinct(call) && Distinct(rest)
    ensures Distinct([AlarmNotice] + call + rest)
    ensures forall e :: e in [AlarmNotice] + call + rest <==> e == AlarmNotice || e in call || e in rest
  {
    DistinctJoin([AlarmNotice], call);
    assert forall x :: x in call ==> x !in rest;
    DistinctJoin([AlarmNotice] + call, rest);
  }

  /** The second half of `onAlarmFire`: `startAuto()` and one
      `autoSendTick()`; the only message it can send is an empty turn. */
  function AutoAndTick(s: State, cfg: Settings, canvas: Option<string>): (r: Step)
    ensures r.state == s.(autoRunning := true)
    ensures AcquireCamera !in r.effects && CameraError !in r.effects
    ensures forall t :: SendUserMessage(t) in r.effects ==> t == []
    ensures (SendUserMessage([]) in r.effects) <==> CaptureFrame(s, canvas).Some?
    ensures (StartAutoTimer(AutoPeriodMs(cfg)) in r.effects) <==> !s.autoRunning
    ensures (RequestGeneration in r.effects) <==> CaptureFrame(s, canvas).Some? && IsInlineMode(cfg)
    ensures forall e :: e in r.effects ==>
              e == StartAutoTimer(AutoPeriodMs(cfg)) || e == SendUserMessage([]) || e == RequestGeneration
    ensures Distinct(r.effects)
  {
    var auto := StartAuto(s, cfg);
    var tick := AutoSendTick(auto.state, cfg, canvas);
    DistinctJoin(auto.effects, tick.effects);
    Step(tick.state, auto.effects + tick.effects)
  }

  /** The loop started by `onAlarmFire` arms its timer before the tick, and
      a reply request comes last. */
  lemma AutoAndTickOrder(s: State, cfg: Settings, canvas: Option<string>)
    ensures var r := AutoAndTick(s, cfg, canvas);
            && (!s.autoRunning ==> r.effects[0] == StartAutoTimer(AutoPeriodMs(cfg)))
            && (RequestGeneration in r.effects ==> r.effects[|r.effects| - 1] == RequestGeneration)
  {
    var auto := StartAuto(s, cfg);
    var tick := AutoSendTick(auto.state, cfg, canvas);
    assert AutoAndTick(s, cfg, canvas).effects == auto.effects + tick.effects;
    assert RequestGeneration !in auto.effects;
  }

  /** A tick only ever sees a frame during a call: after the call ends it
      sends nothing, and right after a call starts it sends its empty turn
      whenever the video has a size. */
  lemma TickFollowsCall(s: State, cfg: Settings, camera: CameraOutcome, canvas: Option<string>)
    ensures AutoSendTick(StopVideoCall(s, cfg).state, cfg, canvas).effects == []
    ensures CallStarts(s, true, camera) && canvas.Some? ==>
              SendUserMessage([]) in AutoSendTick(StartVideoCall(s, cfg, true, camera).state, cfg, canvas).effects
  {
  }

  // ---------------------------------------------------------------------
  // One-shot flags
  // ---------------------------------------------------------------------

  /** A pending override is used by exactly one call start: the first start
      announces it, a second start announces the configured prompt. */
  lemma OverrideConsumedOnce(s: State, cfg: Settings, text: string, camera: CameraOutcome)
    requires s.startOverride == Some(text)
    requires CallStarts(s, true, camera)
    ensures SendUserMessage(Trim(text)) in StartVideoCall(s, cfg, true, camera).effects || Trim(text) == []
    ensures StartVideoCall(s, cfg, true, camera).state.startOverride == None
    ensures var again := StartVideoCall(StartVideoCall(s, cfg, true, camera).state, cfg, true, camera);
            AcquireCamera !in again.effects
            && forall t :: SendUserMessage(t) in again.effects <==> t == GetSettingText(cfg, StartPrompt)
  {
  }

  /** Stopping an idle session still announces the end prompt and sets the
      skip flag, since the prompt can never be empty. */
  lemma StopWhenIdleStillAnnounces(s: State, cfg: Settings)
    requires !s.streamPresent
    ensures ReleaseCamera !in StopVideoCall(s, cfg).effects
    ensures SendUserMessage(GetSettingText(cfg, EndPrompt)) in StopVideoCall(s, cfg).effects
  {
  }
}

=== FILE: text.dfy ===
/** String helpers with the semantics of the JavaScript built-ins the add-on
    calls: `String.prototype.trim`, `String.prototype.replaceAll` with a
    string pattern, `Number.prototype.toString` on non-negative integers and
    `padStart(2, '0')`. */
module Text {

  // ---------------------------------------------------------------------
  // trim
  // ---------------------------------------------------------------------

  /** The WhiteSpace and LineTerminator code points that ECMAScript's `trim`
      removes: tab, line feed, vertical tab, form feed, carriage return,
      space, no-break space, the space separators of category Zs, the line
      and paragraph separators and the byte order mark. */
  predicate IsJsSpace(c: char) {
    || c == '\t' || c == '\n' || c == '\U{000B}' || c == '\U{000C}' || c == '\r'
    || c == ' ' || c == '\U{00A0}' || c == '\U{1680}'
    || ('\U{2000}' <= c <= '\U{200A}')
    || c == '\U{2028}' || c == '\U{2029}' || c == '\U{202F}' || c == '\U{205F}'
    || c == '\U{3000}' || c == '\U{FEFF}'
  }

  predicate AllSpace(s: string) {
    forall i :: 0 <= i < |s| ==> IsJsSpace(s[i])
  }

  /** Neither end of `s` is whitespace. */
  predicate Trimmed(s: string) {
    s == [] || (!IsJsSpace(s[0]) && !IsJsSpace(s[|s| - 1]))
  }

  /** Drops leading whitespace: the result is the suffix of `s` that starts
      at its first non-space character. */
  function TrimStart(s: string): (r: string)
    ensures |r| <= |s| && r == s[|s| - |r|..]
    ensures AllSpace(s[..|s| - |r|])
    ensures r == [] || !IsJsSpace(r[0])
    decreases |s|
  {
    if |s| > 0 && IsJsSpace(s[0]) then
      var r := TrimStart(s[1..]);
      TrimStartStep(s, r);
      r
    else s
  }

  /** A leading space followed by a trimmed suffix of the rest. */
  lemma TrimStartStep(s: string, r: string)
    requires |s| > 0 && IsJsSpace(s[0])
    requires |r| <= |s| - 1 && r == s[1..][|s| - 1 - |r|..]
    requires AllSpace(s[1..][..|s| - 1 - |r|])
    ensures r == s[|s| - |r|..] && AllSpace(s[..|s| - |r|])
  {
    var k := |s| - |r|;
    assert s[1..][|s| - 1 - |r|..] == s[k..];
    forall j | 0 <= j < k ensures IsJsSpace(s[..k][j]) {
      if j > 0 { assert s[..k][j] == s[1..][..k - 1][j - 1]; }
    }
  }

  /** Drops trailing whitespace: the result is the prefix of `s` that ends
      at its last non-space character. */
  function TrimEnd(s: string): (r: string)
    ensures |r| <= |s| && r == s[..|r|]
    ensures AllSpace(s[|r|..])
    ensures r == [] || !IsJsSpace(r[|r| - 1])
    decreases |s|
  {
    if |s| > 0 && IsJsSpace(s[|s| - 1]) then
      var r := TrimEnd(s[..|s| - 1]);
      TrimEndStep(s, r);
      r
    else s
  }

  /** A trimmed prefix of all but a trailing space. */
  lemma TrimEndStep(s: string, r: string)
    requires |s| > 0 && IsJsSpace(s[|s| - 1])
    requires |r| <= |s| - 1 && r == s[..|s| - 1][..|r|]
    requires AllSpace(s[..|s| - 1][|r|..])
    ensures r == s[..|r|] && AllSpace(s[|r|..])
  {
    assert s[..|s| - 1][..|r|] == s[..|r|];
    forall j | 0 <= j < |s| - |r| ensures IsJsSpace(s[|r|..][j]) {
      if j < |s| - 1 - |r| { assert s[|r|..][j] == s[..|s| - 1][|r|..][j]; }
    }
  }

  /** The number of whitespace characters `trim` removes from the front. */
  function LeadingSpace(s: string): nat {
    |s| - |TrimStart(s)|
  }

  /** `s.trim()`: leading and then trailing whitespace removed. */
  function Trim(s: string): (r: string)
    ensures Trimmed(r) && |r| <= |s|
  {
    var t := TrimStart(s);
    var r := TrimEnd(t);
    assert r != [] ==> r[0] == t[0];
    r
  }

  /** What `trim` keeps is the contiguous middle of `s`. */
  lemma TrimIsMiddle(s: string)
    ensures LeadingSpace(s) + |Trim(s)| <= |s|
    ensures Trim(s) == s[LeadingSpace(s)..LeadingSpace(s) + |Trim(s)|]
  {
    var t := TrimStart(s);
    var r := TrimEnd(t);
    var i := |s| - |t|;
    assert LeadingSpace(s) == i && Trim(s) == r;
    MiddleOfSuffix(s, t, r, i);
  }

  /** Everything `trim` cuts off on either side is whitespace. */
  lemma TrimCutsOnlySpace(s: string)
    ensures LeadingSpace(s) + |Trim(s)| <= |s|
    ensures forall k :: 0 <= k < LeadingSpace(s) ==> IsJsSpace(s[k])
    ensures forall k :: LeadingSpace(s) + |Trim(s)| <= k < |s| ==> IsJsSpace(s[k])
  {
    LeadingIsSpace(s);
    TrailingIsSpace(s);
  }

  lemma LeadingIsSpace(s: string)
    ensures forall k :: 0 <= k < LeadingSpace(s) ==> IsJsSpace(s[k])
  {
    SpacePrefix(s, |s| - |TrimStart(s)|);
  }

  lemma TrailingIsSpace(s: string)
    ensures LeadingSpace(s) + |Trim(s)| <= |s|
    ensures forall k :: LeadingSpace(s) + |Trim(s)| <= k < |s| ==> IsJsSpace(s[k])
  {
    var t := TrimStart(s);
    var r := TrimEnd(t);
    var i := |s| - |t|;
    assert LeadingSpace(s) == i && Trim(s) == r;
    MiddleOfSuffix(s, t, r, i);
    SpaceSuffix(s, i + |r|);
  }

  lemma SpacePrefix(s: string, k: nat)
    requires k <= |s| && AllSpace(s[..k])
    ensures forall j :: 0 <= j < k ==> IsJsSpace(s[j])
  {
    forall j | 0 <= j < k ensures IsJsSpace(s[j]) {
      assert s[..k][j] == s[j];
    }
  }

  lemma SpaceSuffix(s: string, k: nat)
    requires k <= |s| && AllSpace(s[k..])
    ensures forall j :: k <= j < |s| ==> IsJsSpace(s[j])
  {
    forall j | k <= j < |s| ensures IsJsSpace(s[j]) {
      assert s[k..][j - k] == s[j];
    }
  }

  /** A prefix of a suffix, followed by whitespace in the suffix, is a
      slice of the whole followed by whitespace in the whole. */
  lemma MiddleOfSuffix(s: string, t: string, r: string, i: nat)
    requires i <= |s| && t == s[i..]
    requires |r| <= |t| && r == t[..|r|] && AllSpace(t[|r|..])
    ensures i + |r| <= |s| && r == s[i..i + |r|] && AllSpace(s[i + |r|..])
  {
    assert t[|r|..] == s[i + |r|..];
  }

  /** Trimming yields the empty string exactly for blank input. */
  lemma TrimEmptyIffBlank(s: string)
    ensures Trim(s) == [] <==> AllSpace(s)
  {
    var r := Trim(s);
    var i := LeadingSpace(s);
    TrimIsMiddle(s);
    TrimCutsOnlySpace(s);
    if r != [] && AllSpace(s) {
      assert false;
    }
  }

  lemma {:induction false} TrimStartPadded(a: string, x: string)
    requires AllSpace(a)
    requires x == [] || !IsJsSpace(x[0])
    ensures TrimStart(a + x) == x
    decreases |a|
  {
    if a == [] {
      assert a + x == x;
    } else {
      assert (a + x)[0] == a[0];
      assert (a + x)[1..] == a[1..] + x;
      TrimStartPadded(a[1..], x);
    }
  }

  lemma {:induction false} TrimEndPadded(x: string, b: string)
    requires AllSpace(b)
    requires x == [] || !IsJsSpace(x[|x| - 1])
    ensures TrimEnd(x + b) == x
    decreases |b|
  {
    if b == [] {
      assert x + b == x;
    } else {
      assert (x + b)[|x + b| - 1] == b[|b| - 1];
      assert (x + b)[..|x + b| - 1] == x + b[..|b| - 1];
      TrimEndPadded(x, b[..|b| - 1]);
    }
  }

  /** `trim` is the reference "strip the padding": padding a trimmed string
      with whitespace on both sides and trimming gives it back. */
  lemma TrimOfPadded(a: string, t: string, b: string)
    requires AllSpace(a) && AllSpace(b) && Trimmed(t)
    ensures Trim(a + t + b) == t
  {
    if t == [] {
      assert a + t + b == (a + b) + [];
      assert AllSpace(a + b) by {
        forall k | 0 <= k < |a + b| ensures IsJsSpace((a + b)[k]) {
          if k < |a| { assert (a + b)[k] == a[k]; } else { assert (a + b)[k] == b[k - |a|]; }
        }
      }
      TrimStartPadded(a + b, []);
    } else {
      var x := a + t + b;
      assert x == a + (t + b);
      assert (t + b)[0] == t[0];
      TrimStartPadded(a, t + b);
      TrimEndPadded(t, b);
      assert Trim(x) == TrimEnd(TrimStart(x));
    }
  }

  /** Text without whitespace at either end is left alone by `trim`. */
  lemma TrimOfTrimmed(t: string)
    requires Trimmed(t)
    ensures Trim(t) == t
  {
    assert [] + t + [] == t;
    TrimOfPadded([], t, []);
  }

  lemma TrimIdempotent(s: string)
    ensures Trim(Trim(s)) == Trim(s)
  {
    TrimOfTrimmed(Trim(s));
  }

  // ---------------------------------------------------------------------
  // replaceAll with a string pattern
  // ---------------------------------------------------------------------

  /** `pat` occurs in `s` starting at index `i`. */
  predicate MatchAt(s: string, pat: string, i: int) {
    0 <= i && i + |pat| <= |s| && s[i..i + |pat|] == pat
  }

  /** No occurrence of `pat` starts before index `k`. */
  predicate NoMatchBefore(s: string, pat: string, k: int) {
    forall i :: 0 <= i < k ==> !MatchAt(s, pat, i)
  }

  predicate NoMatch(s: string, pat: string) {
    NoMatchBefore(s, pat, |s|)
  }

  /** Occurrences in `s[1..]` are the occurrences in `s` shifted by one. */
  lemma MatchShift(s: string, pat: string, i: int)
    requires |s| >= 1 && 0 <= i
    ensures MatchAt(s[1..], pat, i) <==> MatchAt(s, pat, i + 1)
  {
    if i + |pat| <= |s[1..]| {
      assert s[1..][i..i + |pat|] == s[i + 1..i + 1 + |pat|];
    }
  }

  /** Literal replacement of every occurrence of `pat`, scanning left to
      right and resuming after each replaced occurrence (non-overlapping),
      which is how `replaceAll` finds its matches. The replacement text is
      inserted verbatim. */
  function ReplaceAll(s: string, pat: string, rep: string): string
    requires |pat| > 0
    decreases |s|
  {
    if |s| < |pat| then s
    else if s[..|pat|] == pat then rep + ReplaceAll(s[|pat|..], pat, rep)
    else [s[0]] + ReplaceAll(s[1..], pat, rep)
  }

  /** Text in which the pattern does not occur comes back unchanged. */
  lemma {:induction false} ReplaceAllWithoutMatch(s: string, pat: string, rep: string)
    requires |pat| > 0 && NoMatch(s, pat)
    ensures ReplaceAll(s, pat, rep) == s
    decreases |s|
  {
    if |s| >= |pat| {
      assert !MatchAt(s, pat, 0);
      NoMatchBeforeShift(s, pat, |s|);
      ReplaceAllWithoutMatch(s[1..], pat, rep);
      assert [s[0]] + s[1..] == s;
    }
  }

  /** Where no occurrence starts, the first character is copied. */
  lemma ReplaceAllCopyStep(s: string, pat: string, rep: string)
    requires |pat| > 0 && s != [] && !MatchAt(s, pat, 0)
    ensures ReplaceAll(s, pat, rep) == [s[0]] + ReplaceAll(s[1..], pat, rep)
  {
    if |s| < |pat| {
      assert ReplaceAll(s[1..], pat, rep) == s[1..];
      assert s == [s[0]] + s[1..];
    }
  }

  lemma NoMatchBeforeShift(s: string, pat: string, k: int)
    requires 1 <= k <= |s| && NoMatchBefore(s, pat, k)
    ensures NoMatchBefore(s[1..], pat, k - 1)
  {
    forall i | 0 <= i < k - 1 ensures !MatchAt(s[1..], pat, i) {
      MatchShift(s, pat, i);
    }
  }

  /** A prefix in which no occurrence starts is copied unchanged. */
  lemma {:induction false} ReplaceAllAfterPrefix(a: string, t: string, pat: string, rep: string)
    requires |pat| > 0
    requires NoMatchBefore(a + t, pat, |a|)
    ensures ReplaceAll(a + t, pat, rep) == a + ReplaceAll(t, pat, rep)
    decreases |a|
  {
    if a == [] {
      assert a + t == t;
    } else {
      var s := a + t;
      assert !MatchAt(s, pat, 0);
      assert s[1..] == a[1..] + t;
      NoMatchBeforeShift(s, pat, |a|);
      calc {
        ReplaceAll(s, pat, rep);
        == { ReplaceAllCopyStep(s, pat, rep); }
        [s[0]] + ReplaceAll(s[1..], pat, rep);
        == { ReplaceAllAfterPrefix(a[1..], t, pat, rep); }
        [a[0]] + (a[1..] + ReplaceAll(t, pat, rep));
        == { assert [a[0]] + a[1..] == a; }
        a + ReplaceAll(t, pat, rep);
      }
    }
  }

  /** A template with a single occurrence of the placeholder gets the
      replacement inserted verbatim in its place. */
  lemma ReplaceSingleOccurrence(a: string, b: string, pat: string, rep: string)
    requires |pat| > 0
    requires NoMatchBefore(a + pat + b, pat, |a|)
    requires NoMatch(b, pat)
    ensures ReplaceAll(a + pat + b, pat, rep) == a + rep + b
  {
    assert a + pat + b == a + (pat + b);
    assert (pat + b)[..|pat|] == pat;
    assert (pat + b)[|pat|..] == b;
    calc {
      ReplaceAll(a + pat + b, pat, rep);
      == { ReplaceAllAfterPrefix(a, pat + b, pat, rep); }
      a + ReplaceAll(pat + b, pat, rep);
      ==
      a + (rep + ReplaceAll(b, pat, rep));
      == { ReplaceAllWithoutMatch(b, pat, rep); }
      a + (rep + b);
    }
  }

  /** The replacement string as ECMAScript's GetSubstitution expands it for a
      string pattern (no capture groups): `$$` is a dollar sign, `$&` the
      matched text, `` $` `` the text before the match and `$'` the text
      after it; every other `$` is kept literally. `pos` is where the match
      starts in `s`. */
  function JsSubstitution(rep: string, s: string, pos: nat, pat: string): string
    requires pos + |pat| <= |s|
    decreases |rep|
  {
    if |rep| == 0 then []
    else if rep[0] == '$' && |rep| >= 2 && rep[1] == '$' then "$" + JsSubstitution(rep[2..], s, pos, pat)
    else if rep[0] == '$' && |rep| >= 2 && rep[1] == '&' then pat + JsSubstitution(rep[2..], s, pos, pat)
    else if rep[0] == '$' && |rep| >= 2 && rep[1] == '`' then s[..pos] + JsSubstitution(rep[2..], s, pos, pat)
    else if rep[0] == '$' && |rep| >= 2 && rep[1] == '\'' then s[pos + |pat|..] + JsSubstitution(rep[2..], s, pos, pat)
    else [rep[0]] + JsSubstitution(rep[1..], s, pos, pat)
  }

  /** `s.replaceAll(pat, rep)` from index `i` on, with `rep` expanded by
      GetSubstitution at each match. */
  function ReplaceAllJsFrom(s: string, pat: string, rep: string, i: nat): string
    requires |pat| > 0 && i <= |s|
    decreases |s| - i
  {
    if |s| - i < |pat| then s[i..]
    else if s[i..i + |pat|] == pat then JsSubstitution(rep, s, i, pat) + ReplaceAllJsFrom(s, pat, rep, i + |pat|)
    else [s[i]] + ReplaceAllJsFrom(s, pat, rep, i + 1)
  }

  /** `s.replaceAll(pat, rep)` exactly as JavaScript evaluates it. Whatever
      the replacement, a text without the pattern comes back unchanged. */
  function ReplaceAllJs(s: string, pat: string, rep: string): (r: string)
    requires |pat| > 0
    ensures NoMatch(s, pat) ==> r == s
  {
    assert NoMatch(s, pat) ==> ReplaceAllJsFrom(s, pat, rep, 0) == s by {
      if NoMatch(s, pat) {
        ReplaceAllJsFromWithoutMatch(s, pat, rep, 0);
        assert s[0..] == s;
      }
    }
    ReplaceAllJsFrom(s, pat, rep, 0)
  }

  /** From an index after which no occurrence starts, the rest is copied. */
  lemma {:induction false} ReplaceAllJsFromWithoutMatch(s: string, pat: string, rep: string, i: nat)
    requires |pat| > 0 && i <= |s|
    requires forall k :: i <= k < |s| ==> !MatchAt(s, pat, k)
    ensures ReplaceAllJsFrom(s, pat, rep, i) == s[i..]
    decreases |s| - i
  {
    if |s| - i >= |pat| {
      assert !MatchAt(s, pat, i);
      ReplaceAllJsFromWithoutMatch(s, pat, rep, i + 1);
      assert [s[i]] + s[i + 1..] == s[i..];
    }
  }

  lemma {:induction false} JsSubstitutionWithoutDollar(rep: string, s: string, pos: nat, pat: string)
    requires pos + |pat| <= |s|
    requires '$' !in rep
    ensures JsSubstitution(rep, s, pos, pat) == rep
    decreases |rep|
  {
    if |rep| > 0 {
      assert rep[0] != '$';
      JsSubstitutionWithoutDollar(rep[1..], s, pos, pat);
      assert [rep[0]] + rep[1..] == rep;
    }
  }

  /** One matched step, the rest by induction: the expanded replacement of a `$`-free `rep` is
      `rep` itself. */
  lemma ReplaceAllJsFromMatchStep(s: string, pat: string, rep: string, i: nat)
    requires |pat| > 0 && i + |pat| <= |s|
    requires '$' !in rep
    requires s[i..i + |pat|] == pat
    ensures ReplaceAllJsFrom(s, pat, rep, i) == ReplaceAll(s[i..], pat, rep)
    decreases |s| - i, 0
  {
    var rest := ReplaceAll(s[i + |pat|..], pat, rep);
    assert ReplaceAllJsFrom(s, pat, rep, i + |pat|) == rest by {
      ReplaceAllJsFromWithoutDollar(s, pat, rep, i + |pat|);
    }
    assert ReplaceAllJsFrom(s, pat, rep, i) == rep + rest by {
      ReplaceAllJsFromMatchUnfold(s, pat, rep, i);
    }
    assert ReplaceAll(s[i..], pat, rep) == rep + rest by {
      ReplaceAllMatchUnfold(s, pat, rep, i);
    }
  }

  /** At a match, `replaceAll` emits a `$`-free replacement as it is. */
  lemma ReplaceAllJsFromMatchUnfold(s: string, pat: string, rep: string, i: nat)
    requires |pat| > 0 && i + |pat| <= |s|
    requires '$' !in rep
    requires s[i..i + |pat|] == pat
    ensures ReplaceAllJsFrom(s, pat, rep, i) == rep + ReplaceAllJsFrom(s, pat, rep, i + |pat|)
  {
    JsSubstitutionWithoutDollar(rep, s, i, pat);
  }

  /** At a match, the literal replacement emits `rep` and resumes after it. */
  lemma ReplaceAllMatchUnfold(s: string, pat: string, rep: string, i: nat)
    requires |pat| > 0 && i + |pat| <= |s| && s[i..i + |pat|] == pat
    ensures ReplaceAll(s[i..], pat, rep) == rep + ReplaceAll(s[i + |pat|..], pat, rep)
  {
    var t := s[i..];
    assert t[..|pat|] == pat && t[|pat|..] == s[i + |pat|..];
  }

  /** One unmatched step, the rest by induction: the character is copied
      by both. */
  lemma ReplaceAllJsFromCopyStep(s: string, pat: string, rep: string, i: nat)
    requires |pat| > 0 && i + |pat| <= |s|
    requires '$' !in rep
    requires s[i..i + |pat|] != pat
    ensures ReplaceAllJsFrom(s, pat, rep, i) == ReplaceAll(s[i..], pat, rep)
    decreases |s| - i, 0
  {
    ReplaceAllJsFromWithoutDollar(s, pat, rep, i + 1);
    var t := s[i..];
    assert t[..|pat|] == s[i..i + |pat|];
    assert t[1..] == s[i + 1..];
  }

  /** A tail shorter than the pattern is copied by both. */
  lemma ReplaceAllJsFromShortTail(s: string, pat: string, rep: string, i: nat)
    requires |pat| > 0 && i <= |s| && |s| - i < |pat|
    ensures ReplaceAllJsFrom(s, pat, rep, i) == ReplaceAll(s[i..], pat, rep) == s[i..]
  {
  }

  lemma {:induction false} ReplaceAllJsFromWithoutDollar(s: string, pat: string, rep: string, i: nat)
    requires |pat| > 0 && i <= |s|
    requires '$' !in rep
    ensures ReplaceAllJsFrom(s, pat, rep, i) == ReplaceAll(s[i..], pat, rep)
    decreases |s| - i, 1
  {
    if |s| - i < |pat| {
      ReplaceAllJsFromShortTail(s, pat, rep, i);
    } else if s[i..i + |pat|] == pat {
      ReplaceAllJsFromMatchStep(s, pat, rep, i);
    } else {
      ReplaceAllJsFromCopyStep(s, pat, rep, i);
    }
  }

  /** When the replacement holds no `$`, JavaScript's `replaceAll` and the
      literal replacement agree. */
  lemma ReplaceAllJsAgreesWithoutDollar(s: string, pat: string, rep: string)
    requires |pat| > 0
    requires '$' !in rep
    ensures ReplaceAllJs(s, pat, rep) == ReplaceAll(s, pat, rep)
  {
    ReplaceAllJsFromWithoutDollar(s, pat, rep, 0);
    assert s[0..] == s;
  }

  /** The replacement `$$` is one dollar sign to `replaceAll` but two to
      the literal replacement: replacing a whole string shows it. */
  lemma ReplaceAllJsCollapsesDollars(pat: string)
    requires |pat| > 0
    ensures ReplaceAllJs(pat, pat, "$$") == "$"
    ensures ReplaceAll(pat, pat, "$$") == "$$"
  {
    var rep := "$$";
    assert rep[2..] == [];
    assert JsSubstitution(rep, pat, 0, pat) == "$" + JsSubstitution([], pat, 0, pat);
    assert pat[0..0 + |pat|] == pat;
    assert ReplaceAllJsFrom(pat, pat, rep, |pat|) == [];
    assert ReplaceAllJsFrom(pat, pat, rep, 0) == "$" + [];
    assert pat[..|pat|] == pat && pat[|pat|..] == [];
    assert ReplaceAll([], pat, rep) == [];
    assert ReplaceAll(pat, pat, rep) == rep + [];
  }

  // ---------------------------------------------------------------------
  // Decimal digits: Number.prototype.toString and padStart(2, '0')
  // ---------------------------------------------------------------------

  predicate IsDigit(c: char) {
    '0' <= c <= '9'
  }

  predicate AllDigits(s: string) {
    forall i :: 0 <= i < |s| ==> IsDigit(s[i])
  }

  function DigitValue(c: char): nat
    requires IsDigit(c)
  {
    c as int - '0' as int
  }

  function DigitChar(d: nat): (c: char)
    requires d < 10
    ensures IsDigit(c) && DigitValue(c) == d
  {
    ('0' as int + d) as char
  }

  /** The value of a string of decimal digits (leading zeros allowed). */
  function ParseDigits(s: string): nat
    requires AllDigits(s)
    decreases |s|
  {
    if s == [] then 0 else ParseDigits(s[..|s| - 1]) * 10 + DigitValue(s[|s| - 1])
  }

  /** `n.toString()` for a non-negative integer: its shortest decimal
      spelling, with no leading zero except for `0` itself. */
  function NatToString(n: nat): (r: string)
    ensures 1 <= |r| && AllDigits(r)
    ensures r[0] == '0' ==> n == 0
    ensures |r| <= 2 <==> n < 100
    decreases n
  {
    if n < 10 then [DigitChar(n)] else NatToString(n / 10) + [DigitChar(n % 10)]
  }

  lemma {:induction false} ParseNatToString(n: nat)
    ensures ParseDigits(NatToString(n)) == n
    decreases n
  {
    if n >= 10 {
      var d := NatToString(n / 10);
      assert (d + [DigitChar(n % 10)])[..|d|] == d;
      ParseNatToString(n / 10);
    }
  }

  lemma {:induction false} ParseLeadingZero(s: string)
    requires AllDigits(s)
    ensures AllDigits("0" + s) && ParseDigits("0" + s) == ParseDigits(s)
    decreases |s|
  {
    var z := "0" + s;
    if s != [] {
      assert z[..|z| - 1] == "0" + s[..|s| - 1];
      ParseLeadingZero(s[..|s| - 1]);
    }
  }

  /** `n.toString().padStart(2, '0')`: at least two digits, denoting `n`. */
  function FormatTwo(n: nat): (r: string)
    ensures |r| >= 2 && AllDigits(r)
    ensures ParseDigits(r) == n
    ensures n < 100 ==> |r| == 2
    ensures n >= 10 ==> r == NatToString(n)
  {
    var d := NatToString(n);
    ParseNatToString(n);
    if |d| < 2 then ParseLeadingZero(d); "0" + d else d
  }
}

=== FILE: wrappers.dfy ===
/** The optional-value type used wherever the add-on stores `null` or reads a
    host value that may be missing. */
module Wrappers {

  datatype Option<+T> = None | Some(value: T) {

    /** The carried value, or `default` when there is none (the `??` operator). */
    function GetOr(default: T): T {
      match this
      case Some(v) => v
      case None => default
    }
  }
}
